=== FILE: README.md ===
# Acemcp: configuration, administration handlers and command line

A Dafny model of the deterministic decision logic of the Acemcp indexing agent:

- **Configuration** (`src/config.ts`). The `Config` record is resolved from optional command-line
  values, the settings document (`settings.toml`) and the built-in defaults. The other operations
  here are `reload`, `validate`, and the `getConfig`/`initConfig` singleton. Numeric, boolean and
  list settings use `??`, so an explicit `0` is kept. The URL and the token use `||`, so an empty
  string falls through to the next source.
- **Administrative web handlers** (`src/web/app.ts`). These work over the persisted project map
  (`projects.json`: normalized path to blob names) and the settings document:
  - the status, check, list, delete and details handlers;
  - the recursive directory walk of the details handler;
  - token masking in `GET /api/config`;
  - the partial-record merge and reload of `POST /api/config`;
  - the tool-execution endpoint.
- **Command line and start-up** (`src/index.ts`):
  - the `parseArgs` token scanner, including its quirk that `--no-auto-index-on-search` also
    skips the token after it;
  - the `autoIndexOnSearch` override and validation in `main`;
  - the decision to start the web interface;
  - the tool-name dispatch of the protocol handler.

The model is purely functional. The settings document is a record of `Option` fields. The
settings and projects files are small sum types: missing, unparsable, or parsed. The mutable
module-level instance becomes a `Process` value that operations take and return. The handlers
return a `Response` that is either a 200 body or a status code with a message. The module
layout follows the sources:

| file | module | source |
|---|---|---|
| `wrappers.dfy` | `Wrappers` | `Option`, `Result`, `Outcome` |
| `jsset.dfy` | `JsSet` | JavaScript `new Set(list)` as the sequence of first occurrences |
| `configuration.dfy` | `Configuration` | `src/config.ts` |
| `cli.dfy` | `Cli` | `parseArgs` in `src/index.ts` |
| `dirscan.dfy` | `DirScan` | `scanDirectory` inside the details handler of `src/web/app.ts` |
| `scan_finding.dfy` | `ScanFinding` | the concrete input behind the finding below |
| `webapp.dfy` | `WebApp` | the handlers of `src/web/app.ts` |
| `server.dfy` | `Server` | `main` and the tool dispatch in `src/index.ts` |

Some collaborators are not part of this model, and each becomes a parameter:

| collaborator | parameter |
|---|---|
| `normalizeProjectPath` | `Normalizer`: a function to a path or an error message |
| `searchContextTool` | a function from its arguments to a text or an error message; the text stands for `result.text`, which the protocol handler sends, while the web endpoint sends the whole `result` object |
| `parseInt` | `IntParser` |
| the regular-expression engine | `RegexCompiler`: `new RegExp(p)` as an optional matcher |
| the filesystem seen by the details handler | `FileSystem`: path to optional `Listing` tree |

## Model

| member | source | states |
|---|---|---|
| Configuration.EnsureUserConfig | src/config.ts:96-114 | A missing settings file is created holding the defaults; an existing one is left as it is. |
| Configuration.LoadSettings | src/config.ts:158-166 | Loading yields the parsed document, and the empty document `{}` when the file is missing or does not parse. |
| Configuration.FromSettings | src/config.ts:144-152 | Each field is the setting when present and the default when absent (`??`), so an explicit 0 is kept. URL and token take the non-empty CLI value, then the non-empty setting, then the default, so they are never empty. The extension set has exactly the configured elements, each once. |
| Configuration.NewConfig | src/config.ts:133-153 | `new Config(baseUrl, token)` resolves against the parsed document, against the defaults when the file was missing (it is created first), and against `{}` when the file does not parse (it is not overwritten). |
| Configuration.DefaultsWhenAbsent | src/config.ts:14-84 | With no settings, only unrecognised keys, or a failed load, and no CLI values, every field is the default: batch 10, 800 lines, auto-index on, the default URL, token, extensions and exclude list. |
| Configuration.Reload | src/config.ts:171-184 | Reload keeps the CLI URL and token and re-reads everything else, including `autoIndexOnSearch`. |
| Configuration.ReloadIsFreshConstruction | src/config.ts:133-184 | Reloading gives the same record as constructing anew with the same CLI values against the same file. |
| Configuration.ReloadIdempotent | src/config.ts:171-184 | Reloading twice from the same file equals reloading once. |
| Configuration.ReloadResetsAutoIndex | src/config.ts:177-179 | A `false` set on the instance after construction is lost on reload when the settings do not set the flag: it comes back `true`. |
| Configuration.Validate | src/config.ts:189-202 | Validation passes iff both sizes are positive and URL and token are non-empty. The error is that of the first failing check, in that order. |
| Configuration.ValidateConstructed | src/config.ts:144-202 | A constructed configuration fails validation only on the sizes. An explicit non-positive `BATCH_SIZE` is kept and then rejected. |
| Configuration.GetConfig | src/config.ts:213-218 | `getConfig` returns the existing instance unchanged. It creates one (without CLI values) only when none exists. |
| Configuration.InitConfig | src/config.ts:223-226 | `initConfig` always replaces the instance with a new one built from its CLI values. |
| Configuration.GetAfterInit | src/config.ts:208-226 | After `initConfig`, `getConfig` returns that same instance and changes nothing. |
| Configuration.GetConfigStable | src/config.ts:213-218 | A second `getConfig` returns the instance the first one created. |
| JsSet.AddAll | src/config.ts:151 | Adding list elements to a JavaScript Set keeps existing members in place. The result has no duplicates and holds exactly the old and new elements. |
| JsSet.FromList | src/config.ts:151 | `new Set(list)` iterates each element of the list exactly once. |
| JsSet.AddAllFresh | src/config.ts:182 | Adding only new, distinct elements appends them in order. |
| JsSet.FromListOfDistinct | src/config.ts:182 | A list without duplicates is its own Set iteration order. |
| JsSet.FromListIdempotent | src/config.ts:182 | Building a Set from a Set's iteration order changes nothing. |
| JsSet.AddAllSnoc | src/config.ts:151 | Adding one more element to a Set leaves its order unchanged if the element is present, and otherwise appends it. |
| JsSet.FromListSnoc | src/config.ts:151 | The iteration order of `new Set(list)` is the order of first occurrences: extending the list by a seen element changes nothing, and a new one goes last. |
| Cli.ParseFrom | src/index.ts:37-53 | The scan never sets `autoIndexOnSearch` to anything but `false`, and leaves it untouched when the flag is absent. |
| Cli.ParseArgs | src/index.ts:23-56 | `parseArgs` never yields `autoIndexOnSearch == true`; it yields `false` only if the flag occurs. |
| Cli.ParseArgsLoop | src/index.ts:29-55 | The index-based loop (including its extra `i++` after the no-auto flag) computes the same object as the recursive scan. |
| Cli.ParseConcat | src/index.ts:37-53 | Scanning a prefix that ends on a token boundary, then the rest, equals scanning the concatenation. |
| Cli.LaterTokenWins | src/index.ts:42-44 | `--token v` after a complete prefix sets the token to `v`, overriding any earlier value. Nothing else changes. |
| Cli.LaterBaseUrlWins | src/index.ts:39-41 | `--base-url v` after a complete prefix sets the URL to `v`, overriding any earlier value. Nothing else changes. |
| Cli.LaterWebPortWins | src/index.ts:45-47 | `--web-port v` after a complete prefix sets the port to `parseInt(v)`, overriding any earlier value. Nothing else changes. |
| Cli.TrailingValueFlagIgnored | src/index.ts:39-47 | A value flag that is the last token is ignored. |
| Cli.UnknownTokenIgnored | src/index.ts:37-53 | A token that is not a flag is skipped and consumes nothing else. |
| Cli.NoAutoIndexSwallowsNext | src/index.ts:48-51 | `--no-auto-index-on-search` sets the flag to `false` and skips the following token, whatever it is. |
| Cli.NoAutoIndexHidesToken | src/index.ts:48-51 | In `--no-auto-index-on-search --token X`, `--token` is not recognised and `X` is ignored, so no token is set. |
| Cli.ValuesFollowTheirFlag | src/index.ts:39-47 | Every recorded token or URL value is the argument immediately after an occurrence of its flag. Every recorded port is `parseInt` of such an argument. |
| Cli.AbsentFlagLeavesFieldUndefined | src/index.ts:30-47 | Without `--token`, `--base-url` or `--web-port` among the arguments, that field stays undefined. |
| DirScan.Extname | src/web/app.ts:395 | `path.extname` of an entry name is empty or a proper suffix starting at the last dot. It is empty for names without a dot and for dotfiles like `.bashrc`, and non-empty when a dot follows the first character (except `..`). |
| DirScan.ExcludeAsWritten | src/web/app.ts:386-388 | The exclusion test as written returns Excluded only if some pattern equals or matches the name, and Kept only if none does. It throws only if some pattern does not compile. |
| DirScan.Excludes | src/web/app.ts:386-388 | A directory is excluded iff some pattern equals its name or compiles and matches it. |
| DirScan.Record | src/web/app.ts:397-398 | Counting a file adds one to its extension's count and one to the total; all other counts are unchanged. |
| DirScan.ScanListing | src/web/app.ts:377-405 | The walk only adds to the statistics and the total. An unreadable directory contributes nothing. |
| DirScan.ScanEntries | src/web/app.ts:381-401 | Walking a directory's entries only adds to the statistics. |
| DirScan.ScanEntry | src/web/app.ts:385-400 | One entry only adds to the statistics. |
| DirScan.ScanListingAsWritten | src/web/app.ts:377-405 | The walk as written only adds to the statistics. An unreadable directory contributes nothing. |
| DirScan.ScanEntriesAsWritten | src/web/app.ts:378-404 | Walking entries as written only adds to the statistics, even when the exclusion test throws. |
| DirScan.UnderAdmissible | src/web/app.ts:390-391 | Putting a descended directory in front of counted paths keeps every directory on them descendable. |
| DirScan.VisitListing | src/web/app.ts:377-405 | Every counted file lies below directories whose names match no exclude pattern and do not start with `.`, at any depth, and has a configured non-empty extension. |
| DirScan.VisitEntries | src/web/app.ts:381-401 | Within a directory's entries, every counted path is admissible in that sense. |
| DirScan.VisitEntry | src/web/app.ts:385-400 | The paths one entry contributes start with its name and are admissible. |
| DirScan.VisitEntriesExact | src/web/app.ts:385-399 | A path is counted iff it reaches a counted file through readable, non-excluded, non-hidden directories. |
| DirScan.VisitEntryExact | src/web/app.ts:385-392 | The same for the paths one entry contributes. |
| DirScan.ScanEntriesIsRecordAll | src/web/app.ts:393-399 | The accumulated statistics are the tally of the counted files, in walk order. |
| DirScan.ScanEntryIsRecordAll | src/web/app.ts:385-399 | The same for one entry. |
| DirScan.FileCountIsReachableCount | src/web/app.ts:373-407 | `file_count` is the number of reachable counted files. |
| DirScan.ScanEntriesConcat | src/web/app.ts:381-401 | With every entry visited, the walk of a directory is the walk of each part of its entries in turn: nothing is abandoned. |
| DirScan.SumRecord | src/web/app.ts:397-398 | Counting one file raises the sum of the per-extension counts by one. |
| DirScan.ScanEntriesKeepsSum | src/web/app.ts:396-399 | The total stays equal to the sum of the per-extension counts across a walk. |
| DirScan.ScanEntryKeepsSum | src/web/app.ts:385-399 | The same for one entry. |
| DirScan.FileCountIsSumOfStats | src/web/app.ts:372-407 | `file_count` equals the sum of the `file_type_stats` values. |
| DirScan.StatsKeysAreExtensions | src/web/app.ts:395-397 | Every statistics key is a non-empty configured extension. |
| DirScan.StatsKeysAreExtensionsEntry | src/web/app.ts:395-397 | The same for one entry. |
| DirScan.NeverKept | src/web/app.ts:386-388 | As written, with one uncompilable pattern, no directory name passes the exclusion test: each is excluded or throws. |
| DirScan.AsWrittenNeverDescends | src/web/app.ts:377-405 | As written, with an uncompilable pattern, the walk's result does not depend on anything below the scanned directory. |
| DirScan.VisitListingAsWritten | src/web/app.ts:377-405 | Every file the walk as written counts lies below directories that match no exclude pattern and are not hidden, and has a configured non-empty extension. |
| DirScan.VisitEntriesAsWritten | src/web/app.ts:381-401 | The same for a listing's entries, where a throwing exclusion test ends the listing. |
| DirScan.ScanListingAsWrittenIsRecordAll | src/web/app.ts:377-405 | The as-written statistics are the tally of the files the as-written walk meets, in walk order. |
| DirScan.ScanEntriesAsWrittenIsRecordAll | src/web/app.ts:381-404 | The same for a listing's entries. |
| DirScan.RecordAllKeepsSum | src/web/app.ts:396-398 | Counting files one by one keeps the total equal to the sum of the per-extension counts. |
| DirScan.RecordAllKeys | src/web/app.ts:395-397 | Counting admissible files only creates keys that are non-empty configured extensions. |
| DirScan.AsWrittenCounts | src/web/app.ts:372-407 | As written, `file_count` is the number of files the walk meets and the sum of `file_type_stats`, whose keys are configured extensions. |
| DirScan.AsWrittenVisitsFewer | src/web/app.ts:385-392 | Every file the walk as written counts is also counted when every entry is visited. |
| DirScan.AgreesWhenPatternsCompile | src/web/app.ts:386-392 | When every exclude pattern compiles, the walk as written and the corrected walk give the same statistics. |
| DirScan.CorrectedCounts | src/web/app.ts:372-407 | With every entry visited, `file_count` is the number of reachable counted files and the sum of `file_type_stats`, whose keys are configured extensions. |
| DirScan.ListingAgreesWhenPatternsCompile | src/web/app.ts:377-405 | The same agreement for a whole listing from empty statistics. |
| ScanFinding.DefaultPatternsHideSubdirectories | src/config.ts:65 | As written, with the default exclude list, a project of `a.ts` and `src/b.ts` counts one file. |
| ScanFinding.CorrectedScanCountsSubdirectories | src/web/app.ts:377-405 | With every entry visited, the same project counts both files. |
| ScanFinding.AsWrittenMissesNestedFile | src/web/app.ts:386-391 | As written, for any filter with an uncompilable pattern, that project counts one file. |
| ScanFinding.CorrectedCountsNestedFile | src/web/app.ts:385-399 | For any filter that enters `src/`, the corrected walk counts both files. |
| ScanFinding.DetailsUnderDefaults | src/web/app.ts:372-407 | Under the defaults, the details scan of that project counts one file; the corrected scan counts two. |
| WebApp.MaskToken | src/web/app.ts:82 | The masked token is `***` for a non-empty token and empty for an empty one. |
| WebApp.MaskHidesToken | src/web/app.ts:82 | Any two non-empty tokens mask alike. |
| WebApp.ViewConfig | src/web/app.ts:74-91 | The reply masks the token as above, and also carries the unmasked token in `token_full`. Sizes and URL are copied as they are. The extension Set is listed in its iteration order, and the exclude patterns in their order. |
| WebApp.MergeUpdate | src/web/app.ts:109-126 | Each of the six keys is overwritten iff its update field is defined. `AUTO_INDEX_ON_SEARCH` and all other keys are unchanged. |
| WebApp.MergeNothing | src/web/app.ts:109-126 | An empty update leaves the document unchanged. |
| WebApp.MergeIdempotent | src/web/app.ts:109-126 | Applying an update twice equals applying it once. |
| WebApp.PostConfig | src/web/app.ts:96-142 | A missing settings file gives 404 and a parse failure gives 500; in both cases nothing changes. Otherwise the merged document is written and the instance becomes a fresh construction with the previous CLI values against it. |
| WebApp.UpdateTakesEffect | src/web/app.ts:128-134 | For any instance: after an update, supplied sizes and patterns are used as given, `autoIndexOnSearch` comes from the file, and a URL or token given on the command line still wins over the update. |
| WebApp.UpdateSetsUrlAndToken | src/web/app.ts:109-134 | For an instance without a command-line URL or token: a supplied non-empty URL or token is used, and an empty one falls back to the default. |
| WebApp.ProjectCount | src/web/app.ts:151-160 | `project_count` is the number of keys, and 0 when the file is missing or does not parse. |
| WebApp.ResolveProject | src/web/app.ts:179-194 | A missing or empty `project_path` gives 400, and so does a path the normalizer rejects. Otherwise the result is the normalized path. |
| WebApp.CheckProject | src/web/app.ts:177-218 | A missing projects file gives not indexed with count 0. Otherwise `blob_count` is the list length (0 if the key is absent) and `indexed` holds iff it is positive. An unparsable file gives 500. |
| WebApp.ListProjects | src/web/app.ts:223-245 | One entry per key: distinct paths, each key present, each count its list's length. The list has `project_count` entries, is empty without a file, and is 500 on a parse failure. |
| WebApp.DeleteProject | src/web/app.ts:287-334 | Success iff the path resolves and its key is in the file; the file then loses exactly that key. Otherwise: 400, 404 (no file), 500 (unparsable) or 404 (no key), and the file is unchanged. |
| WebApp.DeleteRemovesOnlyThatKey | src/web/app.ts:313-321 | After a delete, every other key keeps its list, the deleted key is gone, and the count drops by one. |
| WebApp.EmptyProjectIsDeletable | src/web/app.ts:313-318 | A key whose blob list is empty is still found and deleted. |
| WebApp.DeleteThenCheck | src/web/app.ts:177-334 | After a delete, check reports not indexed with 0 blobs, and a second delete is 404. |
| WebApp.ScanProject | src/web/app.ts:372-408 | The statistics as the handler computes them, with an uncompilable pattern ending its listing. A missing or non-directory path gives empty statistics. Otherwise the total is the number of files the walk meets and equals the sum of the statistics, whose keys are configured extensions. When every pattern compiles, it equals the corrected scan. |
| WebApp.ScanProjectCorrected | src/web/app.ts:372-408 | With every entry visited, the total is the number of reachable counted files and equals the sum of the statistics, whose keys are configured extensions. |
| WebApp.ProjectDetails | src/web/app.ts:339-421 | Same error cases as delete: 400, 404 without a projects file, 500 with the parse error, 404 without the key. On success: `indexed` is true, `blob_count` is the list length, and `file_count` is the number of files the walk as written counts and the sum of `file_type_stats`. All keys are configured extensions. |
| WebApp.ProjectDetailsCorrected | src/web/app.ts:339-421 | The handler with every entry visited gives the same errors, path, `blob_count` and `indexed`. Its `file_count` is the number of reachable counted files and the sum of `file_type_stats`. It equals the handler as written when every exclude pattern compiles. |
| Server.Main | src/index.ts:147-225 | Start-up exits iff a size is non-positive, or the parsed port is truthy and outside 0..65535 so that `listen` throws. A size error is reported first and names that size. A running server's `autoIndexOnSearch` is false iff the settings or the parsed arguments set it false. An argument swallowed by a preceding flag does not count. The web interface is started iff the parsed port is truthy (defined, not NaN, not 0), and then on that port. |
| Server.OutOfRangePortExits | src/index.ts:161-223 | With valid sizes, `--web-port 99999` ends start-up with the bad-port exit. |
| Server.CommandLineNeverEnablesAutoIndex | src/index.ts:195-198 | The command line can only switch automatic indexing off: if it is on, the settings did not turn it off. |
| Server.UpdateForgetsNoAutoIndexFlag | src/index.ts:194-199 | After start-up with `--no-auto-index-on-search`, any configuration update re-enables auto-indexing when the settings do not set it, while the CLI URL and token survive. |
| Server.CallTool | src/index.ts:107-132 | Only `search_context` runs the search tool. Any other name yields exactly `Unknown tool: ` followed by the name. |
| Server.ExecuteTool | src/web/app.ts:426-447 | The endpoint succeeds only for `search_context` with a successful search. Unknown names and search errors give an error reply with the message. |
| Server.DispatchersAgree | src/web/app.ts:435-438 | Both dispatchers know the same single tool, give the same text for it, and give the same message for unknown names. |
| Server.UnknownToolTextsDistinct | src/index.ts:124-131 | Distinct unknown names produce distinct replies. |

## Findings

| source | as written | input that shows it | evidently intended | confidence | as-written member | corrected member |
|---|---|---|---|---|---|---|
| src/web/app.ts:386-404 | Each directory name is matched with `name === pattern \|\| name.match(new RegExp(pattern))` over the exclude list. The default list holds `'*.egg-info'` (src/config.ts:65), which is not a valid regular expression, so `new RegExp` throws for every name that reaches it. The `catch` around the whole loop then abandons the rest of the directory. With the defaults, the walk never enters a subdirectory. | default configuration, project `a.ts`, `src/b.ts`: `file_count` is 1. See `ScanFinding.DefaultPatternsHideSubdirectories`, `ScanFinding.DetailsUnderDefaults` and `DirScan.AsWrittenNeverDescends`. | Glob-style patterns exclude what they name, and every other entry is still visited. Here an uncompilable pattern matches by equality only, so `file_count` is 2 (`ScanFinding.CorrectedScanCountsSubdirectories`, `DirScan.ScanEntriesConcat`, `DirScan.VisitEntriesExact`). | high (JavaScript `RegExp` semantics); not executed | DirScan.ScanEntriesAsWritten | DirScan.ScanEntries |

`WebApp.ProjectDetails` models the details handler as written, with the throwing walk.
`WebApp.ProjectDetailsCorrected` is the same handler with the corrected walk.

## Left out

- Express routing, the HTTP and WebSocket servers, the MCP SDK server and transports, `startWebServer`, the log broadcaster and the logger: only handler outcomes are modelled.
- Reading and writing files, TOML parsing and printing, and JSON parsing. A written settings document is assumed to parse back to the same record.
- Settings or request fields of the wrong JSON/TOML type (a string `BATCH_SIZE`, a non-array project entry). Every field is typed, and numbers are integers, not floating point.
- `indexStoragePath` and the home-directory paths: they depend on the environment and only locate files.
- The path normalizer, `IndexManager` (chunking, diffing, uploading, and the reindex handler built on it), and the search tool: their code is not part of this model, so they are parameters or left out.
- Regular-expression matching: the engine is a parameter, and only whether a pattern compiles and whether it matches a name is modelled.
- `parseInt`: the parsed port is an abstract number; only its truthiness is used.
- Directory-entry order and whether `existsSync`/`statSync` succeed: the tree is an input.
- `GET /` and static files.
- WebApp.ListProjects: the order of entries is that of the model's key choice, not JavaScript's `Object.keys` insertion order.
- Server.Main: the settings file that `ensureUserConfig` creates before a failed validation is not reported in the `Exited` outcome.
- Server.Main: a `listen` failure reported through the `'error'` event (a port in use, missing permission) is caught and start-up continues without a web interface. It is asynchronous, so the model still reports `Running` with that port.
- The texts of the validation errors and of `main`'s log lines: the model reports which check failed, not the message.
- The handlers that call `getConfig` take the configuration as an argument, because `main` always initialises the instance before the web interface starts.
- The catch-all 500 replies for unexpected exceptions other than a corrupt file.
- Configuration.DefaultsWhenAbsent: states that the default extensions are exactly the members of the resolved set, not the element order of the set, because unfolding the 28-element deduplication is too costly for the solver.

=== FILE: cli.dfy ===
/**
 * Command-line parsing of src/index.ts (`parseArgs`): a left-to-right scan
 * over the arguments after the program name, in which the three value flags
 * consume the token that follows them.
 */
module Cli {
  import opened Wrappers

  /** A JavaScript number as `parseInt` can return it. */
  datatype Number = Int(value: int) | NaN

  /** `parseInt(text, 10)`; the digits-to-number conversion is not modelled. */
  type IntParser = string -> Number

  /** `if (webPort)`: a port is truthy when it is defined, not NaN and not zero. */
  predicate PortTruthy(port: Option<Number>) {
    port.Some? && port.value.Int? && port.value.value != 0
  }

  /** The object `parseArgs` returns; an absent field is `undefined`. */
  datatype CliArgs = CliArgs(
    baseUrl: Option<string>,
    token: Option<string>,
    webPort: Option<Number>,
    autoIndexOnSearch: Option<bool>)

  const NoArgs := CliArgs(None, None, None, None)

  const BaseUrlFlag := "--base-url"
  const TokenFlag := "--token"
  const WebPortFlag := "--web-port"
  const NoAutoIndexFlag := "--no-auto-index-on-search"

  /** Flags that are followed by a value. */
  predicate IsValueFlag(t: string) {
    t == BaseUrlFlag || t == TokenFlag || t == WebPortFlag
  }

  /** Tokens after which the scanner skips one more token. */
  predicate SkipsNext(t: string) {
    IsValueFlag(t) || t == NoAutoIndexFlag
  }

  /** The scan of the remaining arguments `args`, starting from the fields found so far. */
  function ParseFrom(args: seq<string>, acc: CliArgs, parseInt: IntParser): (r: CliArgs)
    ensures r.autoIndexOnSearch == acc.autoIndexOnSearch || r.autoIndexOnSearch == Some(false)
    ensures NoAutoIndexFlag !in args ==> r.autoIndexOnSearch == acc.autoIndexOnSearch
    decreases |args|
  {
    if args == [] then acc
    else if args[0] == BaseUrlFlag && |args| > 1 then
      ParseFrom(args[2..], acc.(baseUrl := Some(args[1])), parseInt)
    else if args[0] == TokenFlag && |args| > 1 then
      ParseFrom(args[2..], acc.(token := Some(args[1])), parseInt)
    else if args[0] == WebPortFlag && |args| > 1 then
      ParseFrom(args[2..], acc.(webPort := Some(parseInt(args[1]))), parseInt)
    else if args[0] == NoAutoIndexFlag then
      // the flag takes no value, yet the loop index is advanced past the next token
      ParseFrom(if |args| > 1 then args[2..] else [], acc.(autoIndexOnSearch := Some(false)), parseInt)
    else
      ParseFrom(args[1..], acc, parseInt)
  }

  /** parseArgs() over `process.argv.slice(2)`. */
  function ParseArgs(args: seq<string>, parseInt: IntParser): (r: CliArgs)
    ensures r.autoIndexOnSearch != Some(true)
    ensures NoAutoIndexFlag !in args ==> r.autoIndexOnSearch.None?
  {
    ParseFrom(args, NoArgs, parseInt)
  }

  /** The loop of parseArgs, index by index; it computes the same object as the scan. */
  method ParseArgsLoop(args: seq<string>, parseInt: IntParser) returns (result: CliArgs)
    ensures result == ParseArgs(args, parseInt)
  {
    result := NoArgs;
    var i := 0;
    while i < |args|
      invariant 0 <= i <= |args| + 1
      invariant ParseFrom(if i <= |args| then args[i..] else [], result, parseInt) == ParseArgs(args, parseInt)
      decreases |args| - i
    {
      var arg := args[i];
      if arg == BaseUrlFlag && i + 1 < |args| {
        result := result.(baseUrl := Some(args[i + 1]));
        i := i + 1;
      } else if arg == TokenFlag && i + 1 < |args| {
        result := result.(token := Some(args[i + 1]));
        i := i + 1;
      } else if arg == WebPortFlag && i + 1 < |args| {
        result := result.(webPort := Some(parseInt(args[i + 1])));
        i := i + 1;
      } else if arg == NoAutoIndexFlag {
        result := result.(autoIndexOnSearch := Some(false));
        i := i + 1;
      }
      i := i + 1;
    }
  }

  /**
   * A prefix the scan leaves exactly at its end: no value flag and no
   * `--no-auto-index-on-search` in it reaches past its last token.
   */
  predicate Closed(a: seq<string>)
    decreases |a|
  {
    if a == [] then true
    else if SkipsNext(a[0]) then |a| >= 2 && Closed(a[2..])
    else Closed(a[1..])
  }

  /** Scanning a closed prefix and then the rest is scanning the concatenation. */
  lemma {:induction false} ParseConcat(a: seq<string>, b: seq<string>, acc: CliArgs, parseInt: IntParser)
    requires Closed(a)
    ensures ParseFrom(a + b, acc, parseInt) == ParseFrom(b, ParseFrom(a, acc, parseInt), parseInt)
    decreases |a|
  {
    if a != [] {
      var ab := a + b;
      assert ab[0] == a[0];
      if SkipsNext(a[0]) {
        assert ab[1] == a[1];
        assert ab[2..] == a[2..] + b;
        var acc' :=
          if a[0] == BaseUrlFlag then acc.(baseUrl := Some(a[1]))
          else if a[0] == TokenFlag then acc.(token := Some(a[1]))
          else if a[0] == WebPortFlag then acc.(webPort := Some(parseInt(a[1])))
          else acc.(autoIndexOnSearch := Some(false));
        assert ParseFrom(a, acc, parseInt) == ParseFrom(a[2..], acc', parseInt);
        assert ParseFrom(ab, acc, parseInt) == ParseFrom(a[2..] + b, acc', parseInt);
        ParseConcat(a[2..], b, acc', parseInt);
      } else {
        assert ab[1..] == a[1..] + b;
        ParseConcat(a[1..], b, acc, parseInt);
      }
    } else {
      assert a + b == b;
    }
  }

  /** Closed prefixes stay closed when followed by another closed sequence. */
  lemma {:induction false} ClosedAppend(a: seq<string>, b: seq<string>)
    requires Closed(a) && Closed(b)
    ensures Closed(a + b)
    decreases |a|
  {
    if a == [] {
      assert a + b == b;
    } else if SkipsNext(a[0]) {
      assert (a + b)[2..] == a[2..] + b;
      ClosedAppend(a[2..], b);
    } else {
      assert (a + b)[1..] == a[1..] + b;
      ClosedAppend(a[1..], b);
    }
  }

  /** A value flag after a closed prefix takes its value; the later occurrence wins. */
  lemma LaterTokenWins(a: seq<string>, v: string, parseInt: IntParser)
    requires Closed(a)
    ensures ParseArgs(a + [TokenFlag, v], parseInt) == ParseArgs(a, parseInt).(token := Some(v))
  {
    ParseConcat(a, [TokenFlag, v], NoArgs, parseInt);
    assert [TokenFlag, v][2..] == [];
  }

  /** Same for the base URL. */
  lemma LaterBaseUrlWins(a: seq<string>, v: string, parseInt: IntParser)
    requires Closed(a)
    ensures ParseArgs(a + [BaseUrlFlag, v], parseInt) == ParseArgs(a, parseInt).(baseUrl := Some(v))
  {
    ParseConcat(a, [BaseUrlFlag, v], NoArgs, parseInt);
    assert [BaseUrlFlag, v][2..] == [];
  }

  /** Same for the web port, whose value goes through `parseInt`. */
  lemma LaterWebPortWins(a: seq<string>, v: string, parseInt: IntParser)
    requires Closed(a)
    ensures ParseArgs(a + [WebPortFlag, v], parseInt) == ParseArgs(a, parseInt).(webPort := Some(parseInt(v)))
  {
    ParseConcat(a, [WebPortFlag, v], NoArgs, parseInt);
    assert [WebPortFlag, v][2..] == [];
  }

  /** A value flag that is the last token is ignored. */
  lemma TrailingValueFlagIgnored(a: seq<string>, flag: string, parseInt: IntParser)
    requires Closed(a) && IsValueFlag(flag)
    ensures ParseArgs(a + [flag], parseInt) == ParseArgs(a, parseInt)
  {
    ParseConcat(a, [flag], NoArgs, parseInt);
    assert [flag][1..] == [];
  }

  /** A token that is not a flag is skipped and consumes nothing else. */
  lemma UnknownTokenIgnored(a: seq<string>, t: string, b: seq<string>, parseInt: IntParser)
    requires Closed(a) && !SkipsNext(t)
    ensures ParseArgs(a + [t] + b, parseInt) == ParseArgs(a + b, parseInt)
  {
    assert Closed([t]) by { assert [t][1..] == []; }
    ClosedAppend(a, [t]);
    ParseConcat(a + [t], b, NoArgs, parseInt);
    ParseConcat(a, [t], NoArgs, parseInt);
    ParseConcat(a, b, NoArgs, parseInt);
    assert [t][1..] == [];
  }

  /**
   * `--no-auto-index-on-search` clears the flag and swallows the token after
   * it, whatever that token is.
   */
  lemma NoAutoIndexSwallowsNext(a: seq<string>, t: string, b: seq<string>, parseInt: IntParser)
    requires Closed(a)
    ensures ParseArgs(a + [NoAutoIndexFlag, t] + b, parseInt)
         == ParseFrom(b, ParseArgs(a, parseInt).(autoIndexOnSearch := Some(false)), parseInt)
  {
    assert a + [NoAutoIndexFlag, t] + b == a + ([NoAutoIndexFlag, t] + b);
    ParseConcat(a, [NoAutoIndexFlag, t] + b, NoArgs, parseInt);
    assert ([NoAutoIndexFlag, t] + b)[2..] == b;
  }

  /** So a `--token X` right after it is not recognised and X is read as an ordinary token. */
  lemma NoAutoIndexHidesToken(parseInt: IntParser)
    ensures ParseArgs([NoAutoIndexFlag, TokenFlag, "X"], parseInt)
         == NoArgs.(autoIndexOnSearch := Some(false))
  {
    NoAutoIndexSwallowsNext([], TokenFlag, ["X"], parseInt);
    assert [] + [NoAutoIndexFlag, TokenFlag] + ["X"] == [NoAutoIndexFlag, TokenFlag, "X"];
  }

  /** Every value the scan records was the token right after its flag. */
  lemma {:induction false} ValuesFollowTheirFlag(args: seq<string>, acc: CliArgs, parseInt: IntParser)
    ensures var r := ParseFrom(args, acc, parseInt);
      && (r.token != acc.token ==>
            exists i :: 0 <= i < |args| - 1 && args[i] == TokenFlag && r.token == Some(args[i + 1]))
      && (r.baseUrl != acc.baseUrl ==>
            exists i :: 0 <= i < |args| - 1 && args[i] == BaseUrlFlag && r.baseUrl == Some(args[i + 1]))
      && (r.webPort != acc.webPort ==>
            exists i :: 0 <= i < |args| - 1 && args[i] == WebPortFlag && r.webPort == Some(parseInt(args[i + 1])))
    decreases |args|
  {
    if args == [] {
    } else if SkipsNext(args[0]) && |args| > 1 {
      var acc' :=
        if args[0] == BaseUrlFlag then acc.(baseUrl := Some(args[1]))
        else if args[0] == TokenFlag then acc.(token := Some(args[1]))
        else if args[0] == WebPortFlag then acc.(webPort := Some(parseInt(args[1])))
        else acc.(autoIndexOnSearch := Some(false));
      assert ParseFrom(args, acc, parseInt) == ParseFrom(args[2..], acc', parseInt);
      ValuesFollowTheirFlag(args[2..], acc', parseInt);
      var r := ParseFrom(args, acc, parseInt);
      if r.token != acc'.token {
        var i :| 0 <= i < |args[2..]| - 1 && args[2..][i] == TokenFlag && r.token == Some(args[2..][i + 1]);
        assert args[i + 2] == TokenFlag && args[i + 3] == args[2..][i + 1];
      }
      if r.baseUrl != acc'.baseUrl {
        var i :| 0 <= i < |args[2..]| - 1 && args[2..][i] == BaseUrlFlag && r.baseUrl == Some(args[2..][i + 1]);
        assert args[i + 2] == BaseUrlFlag && args[i + 3] == args[2..][i + 1];
      }
      if r.webPort != acc'.webPort {
        var i :| 0 <= i < |args[2..]| - 1 && args[2..][i] == WebPortFlag && r.webPort == Some(parseInt(args[2..][i + 1]));
        assert args[i + 2] == WebPortFlag && args[i + 3] == args[2..][i + 1];
      }
    } else {
      var rest := if args[0] == NoAutoIndexFlag then [] else args[1..];
      var acc' := if args[0] == NoAutoIndexFlag then acc.(autoIndexOnSearch := Some(false)) else acc;
      assert ParseFrom(args, acc, parseInt) == ParseFrom(rest, acc', parseInt);
      ValuesFollowTheirFlag(rest, acc', parseInt);
      var r := ParseFrom(args, acc, parseInt);
      if rest != [] {
        if r.token != acc.token {
          var i :| 0 <= i < |rest| - 1 && rest[i] == TokenFlag && r.token == Some(rest[i + 1]);
          assert args[i + 1] == TokenFlag && args[i + 2] == rest[i + 1];
        }
        if r.baseUrl != acc.baseUrl {
          var i :| 0 <= i < |rest| - 1 && rest[i] == BaseUrlFlag && r.baseUrl == Some(rest[i + 1]);
          assert args[i + 1] == BaseUrlFlag && args[i + 2] == rest[i + 1];
        }
        if r.webPort != acc.webPort {
          var i :| 0 <= i < |rest| - 1 && rest[i] == WebPortFlag && r.webPort == Some(parseInt(rest[i + 1]));
          assert args[i + 1] == WebPortFlag && args[i + 2] == rest[i + 1];
        }
      }
    }
  }

  /** Without the flag in the arguments the field stays undefined. */
  lemma AbsentFlagLeavesFieldUndefined(args: seq<string>, parseInt: IntParser)
    ensures TokenFlag !in args ==> ParseArgs(args, parseInt).token.None?
    ensures BaseUrlFlag !in args ==> ParseArgs(args, parseInt).baseUrl.None?
    ensures WebPortFlag !in args ==> ParseArgs(args, parseInt).webPort.None?
  {
    ValuesFollowTheirFlag(args, NoArgs, parseInt);
  }
}

=== FILE: configuration.dfy ===
/**
 * The process-wide configuration of src/config.ts: defaults, resolution of
 * command-line overrides against the settings document, reload, validation
 * and the lazily created singleton instance.
 */
module Configuration {
  import opened Wrappers
  import JsSet

  /** The settings document (settings.toml): each recognised key present or absent. */
  datatype Settings = Settings(
    batchSize: Option<int>,               // BATCH_SIZE
    maxLinesPerBlob: Option<int>,         // MAX_LINES_PER_BLOB
    baseUrl: Option<string>,              // BASE_URL
    token: Option<string>,                // TOKEN
    autoIndexOnSearch: Option<bool>,      // AUTO_INDEX_ON_SEARCH
    textExtensions: Option<seq<string>>,  // TEXT_EXTENSIONS
    excludePatterns: Option<seq<string>>, // EXCLUDE_PATTERNS
    others: map<string, string>)          // every other key, with its TOML text

  /** What loading returns when the file cannot be read or parsed: `{}`. */
  const EmptySettings := Settings(None, None, None, None, None, None, None, map[])

  const DefaultBatchSize := 10
  const DefaultMaxLinesPerBlob := 800
  const DefaultBaseUrl := "https://api.example.com"
  const DefaultToken := "your-token-here"
  const DefaultAutoIndexOnSearch := true
  const DefaultTextExtensions: seq<string> := [
    ".py", ".js", ".ts", ".jsx", ".tsx", ".java", ".go", ".rs", ".cpp", ".c",
    ".h", ".hpp", ".cs", ".rb", ".php", ".md", ".txt", ".json", ".yaml", ".yml",
    ".toml", ".xml", ".html", ".css", ".scss", ".sql", ".sh", ".bash"]
  const DefaultExcludePatterns: seq<string> := [
    ".venv", "venv", ".env", "env", "node_modules", ".git", ".svn", ".hg",
    "__pycache__", ".pytest_cache", ".mypy_cache", ".tox", ".eggs", "*.egg-info",
    "dist", "build", ".idea", ".vscode", ".DS_Store", "*.pyc", "*.pyo", "*.pyd",
    ".Python", "pip-log.txt", "pip-delete-this-directory.txt", ".coverage",
    "htmlcov", ".gradle", "target", "bin", "obj"]

  /** DEFAULT_CONFIG, as the document written when no settings file exists. */
  const DefaultSettings := Settings(
    Some(DefaultBatchSize), Some(DefaultMaxLinesPerBlob), Some(DefaultBaseUrl),
    Some(DefaultToken), Some(DefaultAutoIndexOnSearch), Some(DefaultTextExtensions),
    Some(DefaultExcludePatterns), map[])

  /** The settings file on disk. */
  datatype SettingsFile = Missing | Unparsable(parseError: string) | Parsed(settings: Settings)

  /** ensureUserConfig: a missing settings file is created holding the defaults. */
  function EnsureUserConfig(f: SettingsFile): (r: SettingsFile)
    ensures r != Missing
    ensures f != Missing ==> r == f
    ensures f == Missing ==> r == Parsed(DefaultSettings)
  {
    if f.Missing? then Parsed(DefaultSettings) else f
  }

  /** loadSettings: the parsed document, or `{}` when reading or parsing fails. */
  function LoadSettings(f: SettingsFile): (s: Settings)
    ensures f.Parsed? ==> s == f.settings
    ensures !f.Parsed? ==> s == EmptySettings
  {
    match f
    case Parsed(s) => s
    case _ => EmptySettings
  }

  /** A JavaScript string value is truthy when it is defined and non-empty. */
  predicate Truthy(o: Option<string>) {
    o.Some? && o.value != ""
  }

  /** `first || second || fallback` over optional strings. */
  function FirstTruthy(first: Option<string>, second: Option<string>, fallback: string): (r: string)
    ensures Truthy(first) ==> r == first.value
    ensures !Truthy(first) && Truthy(second) ==> r == second.value
    ensures !Truthy(first) && !Truthy(second) ==> r == fallback
  {
    if Truthy(first) then first.value
    else if Truthy(second) then second.value
    else fallback
  }

  /** An instance of class Config; the private CLI values are kept for reload. */
  datatype Config = Config(
    cliBaseUrl: Option<string>,
    cliToken: Option<string>,
    batchSize: int,
    maxLinesPerBlob: int,
    autoIndexOnSearch: bool,
    baseUrl: string,
    token: string,
    textExtensions: seq<string>,   // a Set, in iteration order
    excludePatterns: seq<string>)

  /**
   * The field assignments of the constructor: `??` for numbers, the flag and
   * the lists, `||` for the URL and the token.
   */
  function FromSettings(cliBaseUrl: Option<string>, cliToken: Option<string>, s: Settings): (c: Config)
    ensures c.cliBaseUrl == cliBaseUrl && c.cliToken == cliToken
    ensures s.batchSize.None? ==> c.batchSize == DefaultBatchSize
    ensures s.batchSize.Some? ==> c.batchSize == s.batchSize.value
    ensures s.maxLinesPerBlob.None? ==> c.maxLinesPerBlob == DefaultMaxLinesPerBlob
    ensures s.maxLinesPerBlob.Some? ==> c.maxLinesPerBlob == s.maxLinesPerBlob.value
    ensures s.autoIndexOnSearch.None? ==> c.autoIndexOnSearch == DefaultAutoIndexOnSearch
    ensures s.autoIndexOnSearch.Some? ==> c.autoIndexOnSearch == s.autoIndexOnSearch.value
    ensures Truthy(cliBaseUrl) ==> c.baseUrl == cliBaseUrl.value
    ensures !Truthy(cliBaseUrl) && Truthy(s.baseUrl) ==> c.baseUrl == s.baseUrl.value
    ensures !Truthy(cliBaseUrl) && !Truthy(s.baseUrl) ==> c.baseUrl == DefaultBaseUrl
    ensures Truthy(cliToken) ==> c.token == cliToken.value
    ensures !Truthy(cliToken) && Truthy(s.token) ==> c.token == s.token.value
    ensures !Truthy(cliToken) && !Truthy(s.token) ==> c.token == DefaultToken
    ensures c.baseUrl != "" && c.token != ""
    ensures JsSet.NoDuplicates(c.textExtensions)
    ensures forall e :: e in c.textExtensions <==> e in s.textExtensions.GetOr(DefaultTextExtensions)
    ensures c.excludePatterns == s.excludePatterns.GetOr(DefaultExcludePatterns)
  {
    Config(
      cliBaseUrl, cliToken,
      s.batchSize.GetOr(DefaultBatchSize),
      s.maxLinesPerBlob.GetOr(DefaultMaxLinesPerBlob),
      s.autoIndexOnSearch.GetOr(DefaultAutoIndexOnSearch),
      FirstTruthy(cliBaseUrl, s.baseUrl, DefaultBaseUrl),
      FirstTruthy(cliToken, s.token, DefaultToken),
      JsSet.FromList(s.textExtensions.GetOr(DefaultTextExtensions)),
      s.excludePatterns.GetOr(DefaultExcludePatterns))
  }

  /** `new Config(baseUrl, token)` against the settings file `f`. */
  function NewConfig(cliBaseUrl: Option<string>, cliToken: Option<string>, f: SettingsFile): (c: Config)
    ensures f.Parsed? ==> c == FromSettings(cliBaseUrl, cliToken, f.settings)
    ensures f.Missing? ==> c == FromSettings(cliBaseUrl, cliToken, DefaultSettings)
    ensures f.Unparsable? ==> c == FromSettings(cliBaseUrl, cliToken, EmptySettings)
  {
    FromSettings(cliBaseUrl, cliToken, LoadSettings(EnsureUserConfig(f)))
  }

  /** The configuration every field of which is the default. */
  lemma DefaultsWhenAbsent(cliBaseUrl: Option<string>, cliToken: Option<string>, f: SettingsFile)
    requires !f.Parsed? || f.settings.(others := map[]) == EmptySettings
    requires !Truthy(cliBaseUrl) && !Truthy(cliToken)
    ensures var c := NewConfig(cliBaseUrl, cliToken, f);
      && c.batchSize == 10 && c.maxLinesPerBlob == 800 && c.autoIndexOnSearch
      && c.baseUrl == DefaultBaseUrl && c.token == DefaultToken
      && (forall e :: e in c.textExtensions <==> e in DefaultTextExtensions)
      && c.excludePatterns == DefaultExcludePatterns
  {
  }

  /** reload(): re-reads the settings but keeps the command-line URL and token. */
  function Reload(c: Config, f: SettingsFile): (r: Config)
    ensures r.cliBaseUrl == c.cliBaseUrl && r.cliToken == c.cliToken
    ensures Truthy(c.cliBaseUrl) ==> r.baseUrl == c.cliBaseUrl.value
    ensures Truthy(c.cliToken) ==> r.token == c.cliToken.value
    ensures r.autoIndexOnSearch == LoadSettings(f).autoIndexOnSearch.GetOr(DefaultAutoIndexOnSearch)
  {
    var s := LoadSettings(f);
    c.(batchSize := s.batchSize.GetOr(DefaultBatchSize),
       maxLinesPerBlob := s.maxLinesPerBlob.GetOr(DefaultMaxLinesPerBlob),
       autoIndexOnSearch := s.autoIndexOnSearch.GetOr(DefaultAutoIndexOnSearch),
       baseUrl := FirstTruthy(c.cliBaseUrl, s.baseUrl, DefaultBaseUrl),
       token := FirstTruthy(c.cliToken, s.token, DefaultToken),
       textExtensions := JsSet.FromList(s.textExtensions.GetOr(DefaultTextExtensions)),
       excludePatterns := s.excludePatterns.GetOr(DefaultExcludePatterns))
  }

  /** Reloading gives the record a fresh constructor with the same CLI values would give. */
  lemma ReloadIsFreshConstruction(c: Config, f: SettingsFile)
    ensures Reload(c, f) == NewConfig(c.cliBaseUrl, c.cliToken, f)
  {
    if f.Missing? {
      assert LoadSettings(EnsureUserConfig(f)) == DefaultSettings;
    }
  }

  /** Reloading twice from the same file is reloading once. */
  lemma ReloadIdempotent(c: Config, f: SettingsFile)
    ensures Reload(Reload(c, f), f) == Reload(c, f)
  {
  }

  /** A flag cleared after construction does not survive a reload: it comes back from the settings. */
  lemma ReloadResetsAutoIndex(c: Config, f: SettingsFile)
    requires LoadSettings(f).autoIndexOnSearch.None?
    ensures Reload(c.(autoIndexOnSearch := false), f).autoIndexOnSearch
  {
  }

  /** The four errors `validate` throws, in the order it checks for them. */
  datatype ConfigError = BatchSizeNotPositive | MaxLinesNotPositive | BaseUrlMissing | TokenMissing

  /** validate(): the first failing check decides the error. */
  function Validate(c: Config): (r: Outcome<ConfigError>)
    ensures r.Pass? <==> c.batchSize > 0 && c.maxLinesPerBlob > 0 && c.baseUrl != "" && c.token != ""
    ensures r == Fail(BatchSizeNotPositive) <==> c.batchSize <= 0
    ensures r == Fail(MaxLinesNotPositive) <==> c.batchSize > 0 && c.maxLinesPerBlob <= 0
    ensures r == Fail(BaseUrlMissing) <==> c.batchSize > 0 && c.maxLinesPerBlob > 0 && c.baseUrl == ""
    ensures r == Fail(TokenMissing) <==>
      c.batchSize > 0 && c.maxLinesPerBlob > 0 && c.baseUrl != "" && c.token == ""
  {
    if c.batchSize <= 0 then Fail(BatchSizeNotPositive)
    else if c.maxLinesPerBlob <= 0 then Fail(MaxLinesNotPositive)
    else if c.baseUrl == "" then Fail(BaseUrlMissing)
    else if c.token == "" then Fail(TokenMissing)
    else Pass
  }

  /**
   * A constructed configuration always has a URL and a token, so validation
   * can only fail on the two sizes; an explicit non-positive size is kept and rejected.
   */
  lemma ValidateConstructed(cliBaseUrl: Option<string>, cliToken: Option<string>, f: SettingsFile)
    ensures var c := NewConfig(cliBaseUrl, cliToken, f);
      && (Validate(c).Pass? <==> c.batchSize > 0 && c.maxLinesPerBlob > 0)
      && Validate(c) != Fail(BaseUrlMissing) && Validate(c) != Fail(TokenMissing)
    ensures var s := LoadSettings(EnsureUserConfig(f));
      s.batchSize.Some? && s.batchSize.value <= 0 ==>
        Validate(NewConfig(cliBaseUrl, cliToken, f)) == Fail(BatchSizeNotPositive)
  {
  }

  /** The module-level `configInstance` together with the settings file it is built from. */
  datatype Process = Process(instance: Option<Config>, settingsFile: SettingsFile)

  /** getConfig(): the existing instance, or a new one built without CLI values. */
  function GetConfig(p: Process): (r: (Config, Process))
    ensures r.1.instance == Some(r.0)
    ensures p.instance.Some? ==> r.0 == p.instance.value && r.1 == p
    ensures p.instance.None? ==>
      && r.0 == NewConfig(None, None, p.settingsFile)
      && r.1.settingsFile == EnsureUserConfig(p.settingsFile)
  {
    match p.instance
    case Some(c) => (c, p)
    case None =>
      var c := NewConfig(None, None, p.settingsFile);
      (c, Process(Some(c), EnsureUserConfig(p.settingsFile)))
  }

  /** initConfig(baseUrl, token): always replaces the instance. */
  function InitConfig(p: Process, cliBaseUrl: Option<string>, cliToken: Option<string>): (r: (Config, Process))
    ensures r.1.instance == Some(r.0)
    ensures r.0 == NewConfig(cliBaseUrl, cliToken, p.settingsFile)
    ensures r.1.settingsFile == EnsureUserConfig(p.settingsFile)
  {
    var c := NewConfig(cliBaseUrl, cliToken, p.settingsFile);
    (c, Process(Some(c), EnsureUserConfig(p.settingsFile)))
  }

  /** Once initialised, getConfig hands out that instance and changes nothing. */
  lemma GetAfterInit(p: Process, cliBaseUrl: Option<string>, cliToken: Option<string>)
    ensures var (c, p') := InitConfig(p, cliBaseUrl, cliToken);
      GetConfig(p') == (c, p')
  {
  }

  /** A second getConfig returns the instance the first one created. */
  lemma GetConfigStable(p: Process)
    ensures var (c, p') := GetConfig(p);
      GetConfig(p') == (c, p')
  {
  }
}

=== FILE: dirscan.dfy ===
/**
 * The recursive `scanDirectory` walk of the project-details handler in
 * src/web/app.ts: which directories it descends into, which files it counts,
 * and the per-extension statistics it accumulates.
 */
module DirScan {
  import opened Wrappers

  /** A file-system tree as `readdirSync(dir, { withFileTypes: true })` reports it. */
  datatype Entry =
    | File(name: string)
    | Directory(name: string, listing: Listing)
    | Other(name: string)     // symbolic links, sockets, ...: neither isFile() nor isDirectory()

  /** The entries of a directory, or the error its listing raises. */
  datatype Listing = Readable(entries: seq<Entry>) | Unreadable

  /** Entry names from the scanned root down to a counted file. */
  type Path = seq<string>

  /** `new RegExp(pattern)`: a matcher for `name.match`, or None when the constructor throws. */
  type RegexCompiler = string -> Option<string -> bool>

  /** What the walk reads from the configuration, plus the regular-expression engine. */
  datatype Filter = Filter(excludePatterns: seq<string>, textExtensions: seq<string>, compile: RegexCompiler)

  /** Index of the last '.' in `name`, or -1. */
  function LastDot(name: string): (i: int)
    ensures -1 <= i < |name|
    ensures i >= 0 ==> name[i] == '.' && forall k :: i < k < |name| ==> name[k] != '.'
    ensures i == -1 ==> forall k :: 0 <= k < |name| ==> name[k] != '.'
    decreases |name|
  {
    if name == [] then -1
    else if name[|name| - 1] == '.' then |name| - 1
    else LastDot(name[..|name| - 1])
  }

  /** `path.extname` of an entry name (a name holds no '/'). */
  function Extname(name: string): (ext: string)
    ensures ext != "" ==>
      && ext[0] == '.' && |ext| < |name| && name[|name| - |ext|..] == ext
      && forall k :: 0 < k < |ext| ==> ext[k] != '.'
    ensures (forall k :: 0 <= k < |name| ==> name[k] != '.') ==> ext == ""
    ensures (exists k :: 0 < k < |name| && name[k] == '.') && name != ".." ==> ext != ""
    ensures |name| > 0 && name[0] == '.' && (forall k :: 0 < k < |name| ==> name[k] != '.') ==> ext == ""
  {
    var d := LastDot(name);
    if d <= 0 || name == ".." then "" else name[d..]
  }

  /** `entry.name.startsWith('.')`. */
  predicate Hidden(name: string) {
    |name| > 0 && name[0] == '.'
  }

  /** A file is counted when its extension is non-empty and configured. */
  predicate Counted(name: string, f: Filter) {
    Extname(name) != "" && Extname(name) in f.textExtensions
  }

  /** Pattern `p` excludes `name`: literally equal, or a compiled pattern that matches. */
  predicate PatternExcludes(name: string, p: string, compile: RegexCompiler) {
    name == p || (compile(p).Some? && compile(p).value(name))
  }

  /** What evaluating `patterns.some(...)` does for one directory name. */
  datatype Verdict = Excluded | Kept | Threw

  /** The exclusion test as written: an uncompilable pattern reached by `some` throws. */
  function ExcludeAsWritten(name: string, patterns: seq<string>, compile: RegexCompiler): (v: Verdict)
    ensures v == Excluded ==> exists i :: 0 <= i < |patterns| && PatternExcludes(name, patterns[i], compile)
    ensures v == Kept ==> forall i :: 0 <= i < |patterns| ==> !PatternExcludes(name, patterns[i], compile)
    ensures v == Threw ==> exists i :: 0 <= i < |patterns| && compile(patterns[i]).None?
    ensures (forall i :: 0 <= i < |patterns| ==> compile(patterns[i]).Some?) ==> v != Threw
    decreases |patterns|
  {
    if patterns == [] then Kept
    else if name == patterns[0] then Excluded
    else match compile(patterns[0])
      case None => Threw
      case Some(m) => if m(name) then Excluded else ExcludeAsWritten(name, patterns[1..], compile)
  }

  /** The exclusion test with an uncompilable pattern matching by equality only. */
  function Excludes(name: string, patterns: seq<string>, compile: RegexCompiler): (b: bool)
    ensures b <==> exists i :: 0 <= i < |patterns| && PatternExcludes(name, patterns[i], compile)
    decreases |patterns|
  {
    if patterns == [] then false
    else PatternExcludes(name, patterns[0], compile) || Excludes(name, patterns[1..], compile)
  }

  /** The walk descends into a directory that no pattern excludes and that is not hidden. */
  predicate Descends(name: string, f: Filter) {
    !Excludes(name, f.excludePatterns, f.compile) && !Hidden(name)
  }

  /** `fileTypeStats` and `totalFiles`. */
  datatype Tally = Tally(stats: map<string, nat>, total: nat)

  const EmptyTally := Tally(map[], 0)

  /** `fileTypeStats[ext] = (fileTypeStats[ext] || 0) + 1; totalFiles++`. */
  function Record(t: Tally, ext: string): (r: Tally)
    ensures r.total == t.total + 1
    ensures ext in r.stats && r.stats[ext] == (if ext in t.stats then t.stats[ext] else 0) + 1
    ensures forall e :: e != ext ==> (e in r.stats <==> e in t.stats)
    ensures forall e :: e != ext && e in t.stats ==> r.stats[e] == t.stats[e]
  {
    Tally(t.stats[ext := (if ext in t.stats then t.stats[ext] else 0) + 1], t.total + 1)
  }

  /** The walk with every entry visited (the corrected behaviour used by the details handler). */
  function ScanListing(l: Listing, f: Filter, t: Tally): (r: Tally)
    ensures l.Unreadable? ==> r == t
    ensures r.total >= t.total
    ensures forall x :: x in t.stats ==> x in r.stats && r.stats[x] >= t.stats[x]
    decreases l
  {
    match l
    case Unreadable => t     // the error is caught and the directory contributes nothing
    case Readable(es) => ScanEntries(es, f, t)
  }

  function ScanEntries(es: seq<Entry>, f: Filter, t: Tally): (r: Tally)
    ensures r.total >= t.total
    ensures forall x :: x in t.stats ==> x in r.stats && r.stats[x] >= t.stats[x]
    decreases es
  {
    if es == [] then t else ScanEntries(es[1..], f, ScanEntry(es[0], f, t))
  }

  function ScanEntry(e: Entry, f: Filter, t: Tally): (r: Tally)
    ensures r.total >= t.total
    ensures forall x :: x in t.stats ==> x in r.stats && r.stats[x] >= t.stats[x]
    decreases e
  {
    match e
    case File(n) => if Counted(n, f) then Record(t, Extname(n)) else t
    case Directory(n, sub) => if Descends(n, f) then ScanListing(sub, f, t) else t
    case Other(_) => t
  }

  /** The walk as written: a throwing exclusion test abandons the rest of the directory. */
  function ScanListingAsWritten(l: Listing, f: Filter, t: Tally): (r: Tally)
    ensures l.Unreadable? ==> r == t
    ensures r.total >= t.total
    ensures forall x :: x in t.stats ==> x in r.stats && r.stats[x] >= t.stats[x]
    decreases l
  {
    match l
    case Unreadable => t
    case Readable(es) => ScanEntriesAsWritten(es, f, t)
  }

  function ScanEntriesAsWritten(es: seq<Entry>, f: Filter, t: Tally): (r: Tally)
    ensures r.total >= t.total
    ensures forall x :: x in t.stats ==> x in r.stats && r.stats[x] >= t.stats[x]
    decreases es
  {
    if es == [] then t
    else match es[0]
      case File(n) =>
        ScanEntriesAsWritten(es[1..], f, if Counted(n, f) then Record(t, Extname(n)) else t)
      case Other(_) => ScanEntriesAsWritten(es[1..], f, t)
      case Directory(n, sub) =>
        match ExcludeAsWritten(n, f.excludePatterns, f.compile)
        case Threw => t
        case Excluded => ScanEntriesAsWritten(es[1..], f, t)
        case Kept =>
          ScanEntriesAsWritten(es[1..], f, if Hidden(n) then t else ScanListingAsWritten(sub, f, t))
  }

  // ---------------------------------------------------------------------------
  // Which files the walk counts

  /** A path the walk may count: a counted file below directories it descends into. */
  predicate Admissible(p: Path, f: Filter) {
    && |p| >= 1
    && Counted(p[|p| - 1], f)
    && forall k :: 0 <= k < |p| - 1 ==> Descends(p[k], f)
  }

  /** Each path of `ps` with `n` in front. */
  function Under(n: string, ps: seq<Path>): (r: seq<Path>)
    ensures |r| == |ps|
    ensures forall i :: 0 <= i < |ps| ==> r[i] == [n] + ps[i]
  {
    seq(|ps|, i requires 0 <= i < |ps| => [n] + ps[i])
  }

  /** The counted files of a listing, in the order the walk meets them. */
  function VisitListing(l: Listing, f: Filter): (ps: seq<Path>)
    ensures forall p :: p in ps ==> Admissible(p, f)
    decreases l
  {
    match l
    case Unreadable => []
    case Readable(es) => VisitEntries(es, f)
  }

  function VisitEntries(es: seq<Entry>, f: Filter): (ps: seq<Path>)
    ensures forall p :: p in ps ==> Admissible(p, f)
    decreases es
  {
    if es == [] then [] else VisitEntry(es[0], f) + VisitEntries(es[1..], f)
  }

  function VisitEntry(e: Entry, f: Filter): (ps: seq<Path>)
    ensures forall p :: p in ps ==> Admissible(p, f) && p[0] == e.name
    decreases e
  {
    match e
    case File(n) => if Counted(n, f) then [[n]] else []
    case Directory(n, sub) =>
      if Descends(n, f) then
        var inner := VisitListing(sub, f);
        UnderAdmissible(n, inner, f);
        Under(n, inner)
      else []
    case Other(_) => []
  }

  /** Prefixing a descended directory keeps paths admissible. */
  lemma UnderAdmissible(n: string, ps: seq<Path>, f: Filter)
    requires Descends(n, f)
    requires forall p :: p in ps ==> Admissible(p, f)
    ensures forall p :: p in Under(n, ps) ==> Admissible(p, f) && p[0] == n
  {
    forall p | p in Under(n, ps) ensures Admissible(p, f) && p[0] == n {
      var i :| 0 <= i < |ps| && Under(n, ps)[i] == p;
      var q := ps[i];
      assert p == [n] + q;
      assert Admissible(q, f);
      forall k | 0 <= k < |p| - 1 ensures Descends(p[k], f) {
        if k > 0 {
          assert p[k] == q[k - 1];
        }
      }
    }
  }

  /** `p` names a counted file reachable from the entries `es` through descended directories. */
  ghost predicate ReachesEntries(es: seq<Entry>, p: Path, f: Filter)
    decreases |p|, 2
  {
    exists i :: 0 <= i < |es| && ReachesEntry(es[i], p, f)
  }

  ghost predicate ReachesEntry(e: Entry, p: Path, f: Filter)
    decreases |p|, 1
  {
    && |p| >= 1
    && p[0] == e.name
    && match e
       case File(n) => |p| == 1 && Counted(n, f)
       case Directory(n, sub) =>
         |p| >= 2 && Descends(n, f) && sub.Readable? && ReachesEntries(sub.entries, p[1..], f)
       case Other(_) => false
  }

  /**
   * The walk counts exactly the reachable files: every file below a directory
   * it may enter, and none below an excluded, hidden or unreadable one, at any depth.
   */
  lemma {:induction false} VisitEntriesExact(es: seq<Entry>, p: Path, f: Filter)
    ensures p in VisitEntries(es, f) <==> ReachesEntries(es, p, f)
    decreases es
  {
    if es != [] {
      VisitEntryExact(es[0], p, f);
      VisitEntriesExact(es[1..], p, f);
      assert VisitEntries(es, f) == VisitEntry(es[0], f) + VisitEntries(es[1..], f);
      if ReachesEntries(es, p, f) {
        var i :| 0 <= i < |es| && ReachesEntry(es[i], p, f);
        if i > 0 {
          assert es[1..][i - 1] == es[i];
        }
      }
      if ReachesEntries(es[1..], p, f) {
        var i :| 0 <= i < |es[1..]| && ReachesEntry(es[1..][i], p, f);
        assert es[i + 1] == es[1..][i];
      }
    }
  }

  lemma {:induction false} VisitEntryExact(e: Entry, p: Path, f: Filter)
    ensures p in VisitEntry(e, f) <==> ReachesEntry(e, p, f)
    decreases e
  {
    match e
    case File(n) =>
      if |p| == 1 && p[0] == n {
        assert p == [n];
      }
    case Other(_) =>
    case Directory(n, sub) =>
      if Descends(n, f) && |p| >= 1 {
        var inner := VisitListing(sub, f);
        if p in Under(n, inner) {
          var i :| 0 <= i < |inner| && Under(n, inner)[i] == p;
          assert p[1..] == inner[i];
        }
        if p[0] == n && p[1..] in inner {
          var i :| 0 <= i < |inner| && inner[i] == p[1..];
          assert Under(n, inner)[i] == p;
        }
        match sub
        case Unreadable =>
        case Readable(es) =>
          VisitEntriesExact(es, p[1..], f);
      }
  }

  // ---------------------------------------------------------------------------
  // The statistics are a tally of the counted files

  /** Records the extensions of `ps`, in order. */
  function RecordAll(t: Tally, ps: seq<Path>): (r: Tally)
    requires forall p :: p in ps ==> |p| >= 1
    ensures r.total == t.total + |ps|
    decreases |ps|
  {
    if ps == [] then t else RecordAll(Record(t, Extname(ps[0][|ps[0]| - 1])), ps[1..])
  }

  lemma {:induction false} RecordAllAppend(t: Tally, a: seq<Path>, b: seq<Path>)
    requires forall p :: p in a ==> |p| >= 1
    requires forall p :: p in b ==> |p| >= 1
    ensures forall p :: p in a + b ==> |p| >= 1
    ensures RecordAll(t, a + b) == RecordAll(RecordAll(t, a), b)
    decreases |a|
  {
    if a == [] {
      assert a + b == b;
    } else {
      assert (a + b)[0] == a[0] && (a + b)[1..] == a[1..] + b;
      RecordAllAppend(Record(t, Extname(a[0][|a[0]| - 1])), a[1..], b);
    }
  }

  lemma {:induction false} RecordAllUnder(t: Tally, n: string, ps: seq<Path>)
    requires forall p :: p in ps ==> |p| >= 1
    ensures forall p :: p in Under(n, ps) ==> |p| >= 1
    ensures RecordAll(t, Under(n, ps)) == RecordAll(t, ps)
    decreases |ps|
  {
    if ps != [] {
      var u := Under(n, ps);
      assert u[0] == [n] + ps[0];
      assert u[0][|u[0]| - 1] == ps[0][|ps[0]| - 1];
      assert u[1..] == Under(n, ps[1..]);
      RecordAllUnder(Record(t, Extname(ps[0][|ps[0]| - 1])), n, ps[1..]);
    }
  }

  /** The walk's tally is the tally of the files it counts, in walk order. */
  lemma {:induction false} ScanEntriesIsRecordAll(es: seq<Entry>, f: Filter, t: Tally)
    ensures ScanEntries(es, f, t) == RecordAll(t, VisitEntries(es, f))
    decreases es
  {
    if es != [] {
      ScanEntryIsRecordAll(es[0], f, t);
      ScanEntriesIsRecordAll(es[1..], f, ScanEntry(es[0], f, t));
      RecordAllAppend(t, VisitEntry(es[0], f), VisitEntries(es[1..], f));
    }
  }

  lemma {:induction false} ScanEntryIsRecordAll(e: Entry, f: Filter, t: Tally)
    ensures ScanEntry(e, f, t) == RecordAll(t, VisitEntry(e, f))
    decreases e
  {
    match e
    case File(n) =>
      if Counted(n, f) {
        assert [[n]][1..] == [];
      }
    case Other(_) =>
    case Directory(n, sub) =>
      if Descends(n, f) {
        match sub
        case Unreadable =>
        case Readable(es) =>
          ScanEntriesIsRecordAll(es, f, t);
        RecordAllUnder(t, n, VisitListing(sub, f));
      }
  }

  /** So the file count is the number of reachable counted files. */
  lemma FileCountIsReachableCount(l: Listing, f: Filter)
    ensures ScanListing(l, f, EmptyTally).total == |VisitListing(l, f)|
  {
    if l.Readable? {
      ScanEntriesIsRecordAll(l.entries, f, EmptyTally);
    }
  }

  /** The walk never abandons an entry: its result on a directory is the result of each part in turn. */
  lemma {:induction false} ScanEntriesConcat(a: seq<Entry>, b: seq<Entry>, f: Filter, t: Tally)
    ensures ScanEntries(a + b, f, t) == ScanEntries(b, f, ScanEntries(a, f, t))
    decreases |a|
  {
    if a == [] {
      assert a + b == b;
    } else {
      assert (a + b)[0] == a[0] && (a + b)[1..] == a[1..] + b;
      ScanEntriesConcat(a[1..], b, f, ScanEntry(a[0], f, t));
    }
  }

  // ---------------------------------------------------------------------------
  // file_count is the sum of file_type_stats

  /** The sum of the values of a statistics map. */
  ghost function Sum(m: map<string, nat>): nat
    decreases |m.Keys|
  {
    if m == map[] then 0
    else
      var k :| k in m;
      assert |(m - {k}).Keys| < |m.Keys| by { assert (m - {k}).Keys == m.Keys - {k}; }
      m[k] + Sum(m - {k})
  }

  /** The sum does not depend on which key is taken first. */
  lemma {:induction false} SumRemove(m: map<string, nat>, k: string)
    requires k in m
    ensures Sum(m) == m[k] + Sum(m - {k})
    decreases |m.Keys|
  {
    var j :| j in m && Sum(m) == m[j] + Sum(m - {j});
    if j != k {
      assert (m - {j}).Keys == m.Keys - {j};
      assert (m - {k}).Keys == m.Keys - {k};
      SumRemove(m - {j}, k);
      SumRemove(m - {k}, j);
      assert m - {j} - {k} == m - {k} - {j};
    }
  }

  /** Recording one file adds one to the sum. */
  lemma SumRecord(t: Tally, ext: string)
    ensures Sum(Record(t, ext).stats) == Sum(t.stats) + 1
  {
    var m := Record(t, ext).stats;
    SumRemove(m, ext);
    if ext in t.stats {
      SumRemove(t.stats, ext);
      assert m - {ext} == t.stats - {ext};
    } else {
      assert m - {ext} == t.stats;
    }
  }

  /** A tally whose total is the sum of its statistics keeps that property through the walk. */
  lemma {:induction false} ScanEntriesKeepsSum(es: seq<Entry>, f: Filter, t: Tally)
    requires t.total == Sum(t.stats)
    ensures ScanEntries(es, f, t).total == Sum(ScanEntries(es, f, t).stats)
    decreases es
  {
    if es != [] {
      ScanEntryKeepsSum(es[0], f, t);
      ScanEntriesKeepsSum(es[1..], f, ScanEntry(es[0], f, t));
    }
  }

  lemma {:induction false} ScanEntryKeepsSum(e: Entry, f: Filter, t: Tally)
    requires t.total == Sum(t.stats)
    ensures ScanEntry(e, f, t).total == Sum(ScanEntry(e, f, t).stats)
    decreases e
  {
    match e
    case File(n) =>
      if Counted(n, f) {
        SumRecord(t, Extname(n));
      }
    case Other(_) =>
    case Directory(n, sub) =>
      if Descends(n, f) && sub.Readable? {
        ScanEntriesKeepsSum(sub.entries, f, t);
      }
  }

  /** From an empty tally, `file_count` is the sum of the `file_type_stats` values. */
  lemma FileCountIsSumOfStats(l: Listing, f: Filter)
    ensures ScanListing(l, f, EmptyTally).total == Sum(ScanListing(l, f, EmptyTally).stats)
  {
    if l.Readable? {
      ScanEntriesKeepsSum(l.entries, f, EmptyTally);
    }
  }

  /** Every statistics key is a non-empty configured extension. */
  lemma {:induction false} StatsKeysAreExtensions(es: seq<Entry>, f: Filter, t: Tally)
    requires forall e :: e in t.stats ==> e != "" && e in f.textExtensions
    ensures forall e :: e in ScanEntries(es, f, t).stats ==> e != "" && e in f.textExtensions
    decreases es
  {
    if es != [] {
      StatsKeysAreExtensionsEntry(es[0], f, t);
      StatsKeysAreExtensions(es[1..], f, ScanEntry(es[0], f, t));
    }
  }

  lemma {:induction false} StatsKeysAreExtensionsEntry(e: Entry, f: Filter, t: Tally)
    requires forall x :: x in t.stats ==> x != "" && x in f.textExtensions
    ensures forall x :: x in ScanEntry(e, f, t).stats ==> x != "" && x in f.textExtensions
    decreases e
  {
    match e
    case File(n) =>
    case Other(_) =>
    case Directory(n, sub) =>
      if Descends(n, f) && sub.Readable? {
        assert ScanEntry(e, f, t) == ScanEntries(sub.entries, f, t);
        StatsKeysAreExtensions(sub.entries, f, t);
      }
  }

  // ---------------------------------------------------------------------------
  // The walk as written

  /** With one uncompilable pattern no directory is ever kept: each is excluded or throws. */
  lemma {:induction false} NeverKept(name: string, patterns: seq<string>, compile: RegexCompiler, j: nat)
    requires j < |patterns| && compile(patterns[j]).None?
    ensures ExcludeAsWritten(name, patterns, compile) != Kept
    decreases |patterns|
  {
    if j > 0 && name != patterns[0] && compile(patterns[0]).Some? && !compile(patterns[0]).value(name) {
      assert patterns[1..][j - 1] == patterns[j];
      NeverKept(name, patterns[1..], compile, j - 1);
    }
  }

  /** Every directory of `es` with its contents dropped. */
  function Hollow(es: seq<Entry>): (r: seq<Entry>)
    ensures |r| == |es|
    decreases |es|
  {
    if es == [] then []
    else [if es[0].Directory? then Directory(es[0].name, Unreadable) else es[0]] + Hollow(es[1..])
  }

  /**
   * As written, an uncompilable exclude pattern (the defaults hold '*.egg-info')
   * makes the walk blind to everything below the scanned directory.
   */
  lemma {:induction false} AsWrittenNeverDescends(es: seq<Entry>, f: Filter, t: Tally, j: nat)
    requires j < |f.excludePatterns| && f.compile(f.excludePatterns[j]).None?
    ensures ScanEntriesAsWritten(es, f, t) == ScanEntriesAsWritten(Hollow(es), f, t)
    decreases |es|
  {
    if es != [] {
      var h := Hollow(es);
      assert h[0] == (if es[0].Directory? then Directory(es[0].name, Unreadable) else es[0]);
      assert h[1..] == Hollow(es[1..]);
      match es[0]
      case File(n) =>
        AsWrittenNeverDescends(es[1..], f, if Counted(n, f) then Record(t, Extname(n)) else t, j);
      case Other(_) =>
        AsWrittenNeverDescends(es[1..], f, t, j);
      case Directory(n, sub) =>
        NeverKept(n, f.excludePatterns, f.compile, j);
        AsWrittenNeverDescends(es[1..], f, t, j);
    }
  }

  // ---------------------------------------------------------------------------
  // What the walk as written counts

  /** The counted files the walk as written meets, in order; a throwing test ends the listing. */
  function VisitListingAsWritten(l: Listing, f: Filter): (ps: seq<Path>)
    ensures forall p :: p in ps ==> Admissible(p, f)
    decreases l
  {
    match l
    case Unreadable => []
    case Readable(es) => VisitEntriesAsWritten(es, f)
  }

  function VisitEntriesAsWritten(es: seq<Entry>, f: Filter): (ps: seq<Path>)
    ensures forall p :: p in ps ==> Admissible(p, f)
    decreases es
  {
    if es == [] then []
    else match es[0]
      case File(n) => (if Counted(n, f) then [[n]] else []) + VisitEntriesAsWritten(es[1..], f)
      case Other(_) => VisitEntriesAsWritten(es[1..], f)
      case Directory(n, sub) =>
        match ExcludeAsWritten(n, f.excludePatterns, f.compile)
        case Threw => []
        case Excluded => VisitEntriesAsWritten(es[1..], f)
        case Kept =>
          var inner := if Hidden(n) then [] else VisitListingAsWritten(sub, f);
          if Hidden(n) then VisitEntriesAsWritten(es[1..], f)
          else
            UnderAdmissible(n, inner, f);
            Under(n, inner) + VisitEntriesAsWritten(es[1..], f)
  }

  /** Recording an admissible path keeps the statistics keys non-empty configured extensions. */
  lemma {:induction false} RecordAllKeys(t: Tally, ps: seq<Path>, f: Filter)
    requires forall p :: p in ps ==> |p| >= 1 && Admissible(p, f)
    requires forall x :: x in t.stats ==> x != "" && x in f.textExtensions
    ensures forall x :: x in RecordAll(t, ps).stats ==> x != "" && x in f.textExtensions
    decreases |ps|
  {
    if ps != [] {
      assert Admissible(ps[0], f);
      assert forall p :: p in ps[1..] ==> p in ps;
      RecordAllKeys(Record(t, Extname(ps[0][|ps[0]| - 1])), ps[1..], f);
    }
  }

  /** Recording paths keeps the total equal to the sum of the statistics. */
  lemma {:induction false} RecordAllKeepsSum(t: Tally, ps: seq<Path>)
    requires forall p :: p in ps ==> |p| >= 1
    requires t.total == Sum(t.stats)
    ensures RecordAll(t, ps).total == Sum(RecordAll(t, ps).stats)
    decreases |ps|
  {
    if ps != [] {
      SumRecord(t, Extname(ps[0][|ps[0]| - 1]));
      assert forall p :: p in ps[1..] ==> p in ps;
      RecordAllKeepsSum(Record(t, Extname(ps[0][|ps[0]| - 1])), ps[1..]);
    }
  }

  /** The as-written tally is the tally of the files the as-written walk meets. */
  lemma {:induction false} ScanListingAsWrittenIsRecordAll(l: Listing, f: Filter, t: Tally)
    ensures ScanListingAsWritten(l, f, t) == RecordAll(t, VisitListingAsWritten(l, f))
    decreases l
  {
    if l.Readable? {
      ScanEntriesAsWrittenIsRecordAll(l.entries, f, t);
    }
  }

  lemma {:induction false} ScanEntriesAsWrittenIsRecordAll(es: seq<Entry>, f: Filter, t: Tally)
    ensures ScanEntriesAsWritten(es, f, t) == RecordAll(t, VisitEntriesAsWritten(es, f))
    decreases es, 1
  {
    if es != [] {
      var rest := VisitEntriesAsWritten(es[1..], f);
      match es[0]
      case File(n) =>
        var t1 := if Counted(n, f) then Record(t, Extname(n)) else t;
        ScanEntriesAsWrittenIsRecordAll(es[1..], f, t1);
        if Counted(n, f) {
          assert [[n]][1..] == [];
          assert RecordAll(t, [[n]]) == t1;
          RecordAllAppend(t, [[n]], rest);
        } else {
          assert [] + rest == rest;
        }
      case Other(_) =>
        ScanEntriesAsWrittenIsRecordAll(es[1..], f, t);
      case Directory(n, sub) =>
        match ExcludeAsWritten(n, f.excludePatterns, f.compile)
        case Threw =>
        case Excluded =>
          ScanEntriesAsWrittenIsRecordAll(es[1..], f, t);
        case Kept =>
          if Hidden(n) {
            ScanEntriesAsWrittenIsRecordAll(es[1..], f, t);
          } else {
            KeptDirectoryIsRecordAll(es, f, t);
          }
    }
  }

  /** The step of the walk as written that enters a kept, visible directory. */
  lemma {:induction false} KeptDirectoryIsRecordAll(es: seq<Entry>, f: Filter, t: Tally)
    requires es != [] && es[0].Directory? && !Hidden(es[0].name)
    requires ExcludeAsWritten(es[0].name, f.excludePatterns, f.compile) == Kept
    ensures ScanEntriesAsWritten(es, f, t) == RecordAll(t, VisitEntriesAsWritten(es, f))
    decreases es, 0
  {
    var n, sub := es[0].name, es[0].listing;
    var inner := VisitListingAsWritten(sub, f);
    var rest := VisitEntriesAsWritten(es[1..], f);
    var t1 := ScanListingAsWritten(sub, f, t);
    assert ScanEntriesAsWritten(es, f, t) == ScanEntriesAsWritten(es[1..], f, t1);
    assert VisitEntriesAsWritten(es, f) == Under(n, inner) + rest;
    ScanListingAsWrittenIsRecordAll(sub, f, t);
    RecordAllUnder(t, n, inner);
    ScanEntriesAsWrittenIsRecordAll(es[1..], f, t1);
    RecordAllAppend(t, Under(n, inner), rest);
  }

  /** As written, `file_count` is the number of files the walk meets and the sum of `file_type_stats`, whose keys are configured extensions. */
  lemma AsWrittenCounts(l: Listing, f: Filter)
    ensures var r := ScanListingAsWritten(l, f, EmptyTally);
      && r.total == |VisitListingAsWritten(l, f)|
      && r.total == Sum(r.stats)
      && forall x :: x in r.stats ==> x != "" && x in f.textExtensions
  {
    var ps := VisitListingAsWritten(l, f);
    ScanListingAsWrittenIsRecordAll(l, f, EmptyTally);
    RecordAllKeepsSum(EmptyTally, ps);
    RecordAllKeys(EmptyTally, ps, f);
  }

  /** With every entry visited, `file_count` is the number of reachable files and the sum of `file_type_stats`, whose keys are configured extensions. */
  lemma CorrectedCounts(l: Listing, f: Filter)
    ensures var r := ScanListing(l, f, EmptyTally);
      && r.total == |VisitListing(l, f)|
      && r.total == Sum(r.stats)
      && forall x :: x in r.stats ==> x != "" && x in f.textExtensions
  {
    FileCountIsSumOfStats(l, f);
    FileCountIsReachableCount(l, f);
    if l.Readable? {
      StatsKeysAreExtensions(l.entries, f, EmptyTally);
    }
  }

  /** When every exclude pattern compiles, both walks give the same statistics for a listing. */
  lemma ListingAgreesWhenPatternsCompile(l: Listing, f: Filter)
    ensures (forall i :: 0 <= i < |f.excludePatterns| ==> f.compile(f.excludePatterns[i]).Some?) ==>
      ScanListingAsWritten(l, f, EmptyTally) == ScanListing(l, f, EmptyTally)
  {
    if l.Readable? && forall i :: 0 <= i < |f.excludePatterns| ==> f.compile(f.excludePatterns[i]).Some? {
      AgreesWhenPatternsCompile(l.entries, f, EmptyTally);
    }
  }

  /** Every file the walk as written counts is one the corrected walk counts. */
  lemma {:induction false} AsWrittenVisitsFewer(es: seq<Entry>, p: Path, f: Filter)
    requires p in VisitEntriesAsWritten(es, f)
    ensures p in VisitEntries(es, f)
    decreases es
  {
    var rest := VisitEntriesAsWritten(es[1..], f);
    assert VisitEntries(es, f) == VisitEntry(es[0], f) + VisitEntries(es[1..], f);
    match es[0]
    case File(n) =>
      if p !in VisitEntry(es[0], f) {
        AsWrittenVisitsFewer(es[1..], p, f);
      }
    case Other(_) =>
      AsWrittenVisitsFewer(es[1..], p, f);
    case Directory(n, sub) =>
      match ExcludeAsWritten(n, f.excludePatterns, f.compile)
      case Excluded =>
        AsWrittenVisitsFewer(es[1..], p, f);
      case Kept =>
        if Hidden(n) || p in rest {
          AsWrittenVisitsFewer(es[1..], p, f);
        } else {
          var inner := VisitListingAsWritten(sub, f);
          assert p in Under(n, inner);
          var i :| 0 <= i < |inner| && Under(n, inner)[i] == p;
          assert sub.Readable?;
          AsWrittenVisitsFewer(sub.entries, inner[i], f);
          VisitEntriesExact(sub.entries, inner[i], f);
          VisitEntryExact(es[0], p, f);
          assert p[1..] == inner[i];
        }
  }

  /** When every exclude pattern compiles, the walk as written is the corrected walk. */
  lemma {:induction false} AgreesWhenPatternsCompile(es: seq<Entry>, f: Filter, t: Tally)
    requires forall i :: 0 <= i < |f.excludePatterns| ==> f.compile(f.excludePatterns[i]).Some?
    ensures ScanEntriesAsWritten(es, f, t) == ScanEntries(es, f, t)
    decreases es
  {
    if es != [] {
      match es[0]
      case File(n) =>
        AgreesWhenPatternsCompile(es[1..], f, ScanEntry(es[0], f, t));
      case Other(_) =>
        AgreesWhenPatternsCompile(es[1..], f, t);
      case Directory(n, sub) =>
        var v := ExcludeAsWritten(n, f.excludePatterns, f.compile);
        assert v == Kept <==> !Excludes(n, f.excludePatterns, f.compile);
        if v == Kept && !Hidden(n) {
          if sub.Readable? {
            AgreesWhenPatternsCompile(sub.entries, f, t);
          }
          assert ScanListingAsWritten(sub, f, t) == ScanEntry(es[0], f, t);
        }
        AgreesWhenPatternsCompile(es[1..], f, ScanEntry(es[0], f, t));
    }
  }
}

=== FILE: jsset.dfy ===
/**
 * JavaScript's `new Set(list)` seen through its iteration order: each element
 * once, at the position of its first occurrence in the list.
 */
module JsSet {

  /** No element occurs twice. */
  predicate NoDuplicates<T(==,!new)>(xs: seq<T>) {
    forall i, j :: 0 <= i < j < |xs| ==> xs[i] != xs[j]
  }

  /** Adds the elements of `xs` one by one to the set whose iteration order is `s`. */
  function AddAll<T(==,!new)>(s: seq<T>, xs: seq<T>): (r: seq<T>)
    requires NoDuplicates(s)
    ensures NoDuplicates(r)
    ensures forall x :: x in r <==> x in s || x in xs
    ensures |s| <= |r| <= |s| + |xs|
    ensures r[..|s|] == s
    decreases |xs|
  {
    if xs == [] then s
    else if xs[0] in s then AddAll(s, xs[1..])
    else AddAll(s + [xs[0]], xs[1..])
  }

  /** `new Set(xs)`, listed in iteration order. */
  function FromList<T(==,!new)>(xs: seq<T>): (r: seq<T>)
    ensures NoDuplicates(r)
    ensures forall x :: x in r <==> x in xs
    ensures |r| <= |xs|
  {
    AddAll([], xs)
  }

  /** Adding one more element: nothing changes if it is already present, else it goes last. */
  lemma {:induction false} AddAllSnoc<T(!new)>(s: seq<T>, xs: seq<T>, x: T)
    requires NoDuplicates(s)
    ensures var r := AddAll(s, xs);
      AddAll(s, xs + [x]) == if x in r then r else r + [x]
    decreases |xs|
  {
    if xs == [] {
      assert xs + [x] == [x];
      assert [x][1..] == [];
    } else {
      assert (xs + [x])[0] == xs[0];
      assert (xs + [x])[1..] == xs[1..] + [x];
      if xs[0] in s {
        AddAllSnoc(s, xs[1..], x);
      } else {
        AddAllSnoc(s + [xs[0]], xs[1..], x);
      }
    }
  }

  /**
   * The iteration order of `new Set(xs)`: extending the list by an element
   * already seen changes nothing, and a new one is appended. This fixes the
   * order as that of first occurrences.
   */
  lemma FromListSnoc<T(!new)>(xs: seq<T>, x: T)
    ensures FromList(xs + [x]) == if x in xs then FromList(xs) else FromList(xs) + [x]
  {
    AddAllSnoc([], xs, x);
  }

  /** Adding elements that are all new appends them in order. */
  lemma {:induction false} AddAllFresh<T(!new)>(s: seq<T>, xs: seq<T>)
    requires NoDuplicates(s + xs)
    ensures NoDuplicates(s)
    ensures AddAll(s, xs) == s + xs
    decreases |xs|
  {
    assert NoDuplicates(s) by {
      forall i, j | 0 <= i < j < |s| ensures s[i] != s[j] {
        assert (s + xs)[i] == s[i] && (s + xs)[j] == s[j];
      }
    }
    if xs != [] {
      assert xs[0] == (s + xs)[|s|];
      assert xs[0] !in s by {
        forall i | 0 <= i < |s| ensures s[i] != xs[0] {
          assert (s + xs)[i] == s[i];
        }
      }
      assert s + [xs[0]] + xs[1..] == s + xs;
      AddAllFresh(s + [xs[0]], xs[1..]);
    }
  }

  /** A list without duplicates is its own set: nothing is dropped or reordered. */
  lemma FromListOfDistinct<T(!new)>(xs: seq<T>)
    requires NoDuplicates(xs)
    ensures FromList(xs) == xs
  {
    assert [] + xs == xs;
    AddAllFresh([], xs);
  }

  /** Building a set from a set's own iteration order changes nothing. */
  lemma FromListIdempotent<T(!new)>(xs: seq<T>)
    ensures FromList(FromList(xs)) == FromList(xs)
  {
    FromListOfDistinct(FromList(xs));
  }
}

=== FILE: scan_finding.dfy ===
/**
 * The default exclude list holds glob-style patterns such as '*.egg-info'
 * that are not valid regular expressions: `new RegExp('*.egg-info')` throws
 * ("nothing to repeat"). As written, the details walk reaches that pattern for
 * every ordinary directory name, the error escapes `some`, and the catch
 * around the whole loop abandons the rest of the directory.
 */
module ScanFinding {
  import opened Wrappers
  import opened DirScan
  import Configuration
  import WebApp

  /**
   * The JavaScript engine restricted to the directory name "src" of the project
   * below: a pattern starting with a quantifier does not compile, and no other
   * default pattern matches "src". It is not a general regular-expression engine.
   */
  function SrcRegexEngine(p: string): Option<string -> bool> {
    if |p| > 0 && p[0] == '*' then None else Some((s: string) => s == p)
  }

  /**
   * The walk's view of the default configuration (the walk only asks whether
   * an extension is in the list, so the list stands for the Set built from it).
   */
  function DefaultFilter(): (f: Filter)
    ensures f.excludePatterns == Configuration.DefaultExcludePatterns
    ensures f.textExtensions == Configuration.DefaultTextExtensions
  {
    Filter(Configuration.DefaultExcludePatterns, Configuration.DefaultTextExtensions, SrcRegexEngine)
  }

  /** A project with one source file at the top and one inside `src/`. */
  const Src := Directory("src", Readable([File("b.ts")]))
  const Project := Readable([File("a.ts"), Src])

  lemma TsIsCounted(n: string)
    requires n == "a.ts" || n == "b.ts"
    ensures Counted(n, DefaultFilter()) && Extname(n) == ".ts"
  {
    assert LastDot(n[..3]) == 1;
    assert LastDot(n) == 1;
    assert Configuration.DefaultTextExtensions[2] == ".ts";
  }

  lemma SrcIsDescended()
    ensures Descends("src", DefaultFilter())
  {
    var ps := Configuration.DefaultExcludePatterns;
    forall i | 0 <= i < |ps| ensures !PatternExcludes("src", ps[i], SrcRegexEngine) {
      assert ps[i] != "src";
    }
  }

  /** As written, a directory last in its listing is never entered. */
  lemma LoneDirectoryNotEntered(n: string, l: Listing, f: Filter, t: Tally, j: nat)
    requires j < |f.excludePatterns| && f.compile(f.excludePatterns[j]).None?
    ensures ScanEntriesAsWritten([Directory(n, l)], f, t) == t
  {
    NeverKept(n, f.excludePatterns, f.compile, j);
    assert [Directory(n, l)][1..] == [];
  }

  /** With every entry visited, a descended directory contributes its contents. */
  lemma LoneDirectoryEntered(n: string, es: seq<Entry>, f: Filter, t: Tally)
    requires Descends(n, f)
    ensures ScanEntries([Directory(n, Readable(es))], f, t) == ScanEntries(es, f, t)
  {
    var d := Directory(n, Readable(es));
    assert [d][1..] == [];
    assert ScanEntry(d, f, t) == ScanEntries(es, f, t);
    assert ScanEntries([d], f, t) == ScanEntries([], f, ScanEntry(d, f, t));
  }

  /** A counted file first in the listing is recorded before the rest is walked. */
  lemma LeadingFileCounted(n: string, rest: seq<Entry>, f: Filter, t: Tally)
    requires Counted(n, f)
    ensures ScanEntries([File(n)] + rest, f, t) == ScanEntries(rest, f, Record(t, Extname(n)))
    ensures ScanEntriesAsWritten([File(n)] + rest, f, t) == ScanEntriesAsWritten(rest, f, Record(t, Extname(n)))
  {
    assert ([File(n)] + rest)[1..] == rest;
  }

  /** As written, the nested file is missed under any filter holding an uncompilable pattern. */
  lemma AsWrittenMissesNestedFile(f: Filter, j: nat)
    requires Counted("a.ts", f) && Extname("a.ts") == ".ts"
    requires j < |f.excludePatterns| && f.compile(f.excludePatterns[j]).None?
    ensures ScanListingAsWritten(Project, f, EmptyTally).total == 1
  {
    assert Project.entries == [File("a.ts")] + [Src];
    LeadingFileCounted("a.ts", [Src], f, EmptyTally);
    LoneDirectoryNotEntered("src", Src.listing, f, Record(EmptyTally, ".ts"), j);
  }

  /** With every entry visited, both files are counted under any filter that enters `src/`. */
  lemma CorrectedCountsNestedFile(f: Filter)
    requires Counted("a.ts", f) && Extname("a.ts") == ".ts"
    requires Counted("b.ts", f) && Extname("b.ts") == ".ts"
    requires Descends("src", f)
    ensures ScanListing(Project, f, EmptyTally).total == 2
  {
    var t1 := Record(EmptyTally, ".ts");
    assert Project.entries == [File("a.ts")] + [Src];
    LeadingFileCounted("a.ts", [Src], f, EmptyTally);
    LoneDirectoryEntered("src", [File("b.ts")], f, t1);
    assert [File("b.ts")] == [File("b.ts")] + [];
    LeadingFileCounted("b.ts", [], f, t1);
  }

  /** The default pattern '*.egg-info' does not compile. */
  lemma EggInfoDoesNotCompile()
    ensures 13 < |DefaultFilter().excludePatterns|
    ensures DefaultFilter().compile(DefaultFilter().excludePatterns[13]).None?
  {
    assert Configuration.DefaultExcludePatterns[13] == "*.egg-info";
  }

  /** As written, with the default patterns the file below `src/` is missed: one file is counted, not two. */
  lemma DefaultPatternsHideSubdirectories()
    ensures ScanListingAsWritten(Project, DefaultFilter(), EmptyTally).total == 1
  {
    TsIsCounted("a.ts");
    EggInfoDoesNotCompile();
    AsWrittenMissesNestedFile(DefaultFilter(), 13);
  }

  /** With every entry visited, both files are counted. */
  lemma CorrectedScanCountsSubdirectories()
    ensures ScanListing(Project, DefaultFilter(), EmptyTally).total == 2
  {
    TsIsCounted("a.ts");
    TsIsCounted("b.ts");
    SrcIsDescended();
    CorrectedCountsNestedFile(DefaultFilter());
  }

  /** The details handler reports one file for the project; with every entry visited it would report two. */
  lemma DetailsUnderDefaults()
    ensures WebApp.ScanProject(Some(Project), DefaultFilter()).total == 1
    ensures WebApp.ScanProjectCorrected(Some(Project), DefaultFilter()).total == 2
  {
    DefaultPatternsHideSubdirectories();
    CorrectedScanCountsSubdirectories();
  }
}

=== FILE: server.dfy ===
/**
 * The server entry point of src/index.ts (`main`: parse the arguments,
 * initialise and adjust the configuration, validate it, decide whether to
 * start the web interface) and the tool dispatch of the protocol handler and
 * of the web debugging endpoint.
 */
module Server {
  import opened Wrappers
  import opened Configuration
  import opened Cli
  import WebApp

  /** Why `main` calls `process.exit(1)`. */
  datatype ExitCause =
    | InvalidConfig(error: ConfigError)   // thrown by `config.validate()`
    | BadPort(port: int)                  // thrown by `httpServer.listen` for a port outside 0..65535

  /** How `main` ends: `process.exit(1)`, or a running server. */
  datatype Startup =
    | Exited(cause: ExitCause)
    | Running(process: Process, webPort: Option<int>)   // the port the web interface listens on

  /** `listen` accepts the integer ports 0..65535 and throws synchronously for any other. */
  predicate ListenablePort(port: int) {
    0 <= port <= 65535
  }

  /** `main()` for the arguments after the program name, against the settings file of `p`. */
  function Main(argv: seq<string>, parseInt: IntParser, p: Process): (r: Startup)
    ensures var a := ParseArgs(argv, parseInt);
      var c := NewConfig(a.baseUrl, a.token, p.settingsFile);
      var sizesValid := c.batchSize > 0 && c.maxLinesPerBlob > 0;
      && (r.Running? <==> sizesValid && (PortTruthy(a.webPort) ==> ListenablePort(a.webPort.value.value)))
      && (!sizesValid ==> r == Exited(InvalidConfig(if c.batchSize <= 0 then BatchSizeNotPositive else MaxLinesNotPositive)))
      && (sizesValid && PortTruthy(a.webPort) && !ListenablePort(a.webPort.value.value) ==>
            r == Exited(BadPort(a.webPort.value.value)))
      && (r.Running? ==>
            && r.process.settingsFile == EnsureUserConfig(p.settingsFile)
            && r.process.instance == Some(c.(autoIndexOnSearch := c.autoIndexOnSearch && a.autoIndexOnSearch != Some(false)))
            && (r.webPort.Some? <==> PortTruthy(a.webPort))
            && (r.webPort.Some? ==> Some(Int(r.webPort.value)) == a.webPort && 0 < r.webPort.value <= 65535))
  {
    var a := ParseArgs(argv, parseInt);
    var (c, p1) := InitConfig(p, a.baseUrl, a.token);
    // only an explicit false from the command line overrides the settings
    var c' := if a.autoIndexOnSearch == Some(false) then c.(autoIndexOnSearch := false) else c;
    ValidateConstructed(a.baseUrl, a.token, p.settingsFile);
    match Validate(c')
    case Fail(e) => Exited(InvalidConfig(e))
    case Pass =>
      if !PortTruthy(a.webPort) then Running(p1.(instance := Some(c')), None)
      else if !ListenablePort(a.webPort.value.value) then Exited(BadPort(a.webPort.value.value))
      else Running(p1.(instance := Some(c')), Some(a.webPort.value.value))
  }

  /** A truthy port that `listen` rejects ends start-up once the configuration is valid. */
  lemma OutOfRangePortExits(parseInt: IntParser, p: Process)
    requires parseInt("99999") == Int(99999)
    requires NewConfig(None, None, p.settingsFile).batchSize > 0
    requires NewConfig(None, None, p.settingsFile).maxLinesPerBlob > 0
    ensures Main(["--web-port", "99999"], parseInt, p) == Exited(BadPort(99999))
  {
    var argv := ["--web-port", "99999"];
    assert argv[2..] == [];
    assert ParseArgs(argv, parseInt) == CliArgs(None, None, Some(Int(99999)), None);
  }

  /** The command line can only switch automatic indexing off, never on. */
  lemma CommandLineNeverEnablesAutoIndex(argv: seq<string>, parseInt: IntParser, p: Process)
    requires Main(argv, parseInt, p).Running?
    ensures var c := Main(argv, parseInt, p).process.instance.value;
      c.autoIndexOnSearch ==> LoadSettings(EnsureUserConfig(p.settingsFile)).autoIndexOnSearch != Some(false)
  {
  }

  /**
   * A later configuration update reloads the instance: the command-line URL
   * survives, but a command-line `--no-auto-index-on-search` does not.
   */
  lemma UpdateForgetsNoAutoIndexFlag(argv: seq<string>, parseInt: IntParser, p: Process, u: WebApp.ConfigUpdate)
    requires Main(argv, parseInt, p).Running?
    requires p.settingsFile.Parsed? && p.settingsFile.settings.autoIndexOnSearch.None?
    ensures var started := Main(argv, parseInt, p).process;
      var a := ParseArgs(argv, parseInt);
      var after := WebApp.PostConfig(started, u).1.instance.value;
      && (a.autoIndexOnSearch == Some(false) ==> !started.instance.value.autoIndexOnSearch)
      && after.autoIndexOnSearch
      && (Truthy(a.baseUrl) ==> after.baseUrl == a.baseUrl.value)
      && (Truthy(a.token) ==> after.token == a.token.value)
  {
  }

  // ---------------------------------------------------------------------------
  // Tool dispatch

  const SearchToolName := "search_context"
  const UnknownToolPrefix := "Unknown tool: "

  /**
   * The CallToolRequest handler: `search_context` runs the search tool
   * (whose error propagates to the protocol layer); any other name yields a text.
   */
  function CallTool<A>(name: string, args: A, search: A -> Result<string, string>): (r: Result<string, string>)
    ensures name == SearchToolName ==> r == search(args)
    ensures name != SearchToolName ==>
      && r.Success? && |r.value| >= |UnknownToolPrefix|
      && r.value[..|UnknownToolPrefix|] == UnknownToolPrefix
      && r.value[|UnknownToolPrefix|..] == name
  {
    if name == SearchToolName then search(args)
    else Success(UnknownToolPrefix + name)
  }

  /** The reply of POST /api/tools/execute. */
  /**
   * The reply of the web endpoint. The endpoint sends the whole `result` object
   * and the protocol handler only `result.text`; `result` here stands for that text.
   */
  datatype ToolReply = ToolSuccess(result: string) | ToolError(message: string)

  /** POST /api/tools/execute: the same dispatch, with errors caught into the reply. */
  function ExecuteTool<A>(name: string, args: A, search: A -> Result<string, string>): (r: ToolReply)
    ensures r.ToolSuccess? ==> name == SearchToolName && search(args) == Success(r.result)
    ensures name != SearchToolName ==> r == ToolError(UnknownToolPrefix + name)
    ensures name == SearchToolName && search(args).Failure? ==> r == ToolError(search(args).error)
  {
    if name != SearchToolName then ToolError(UnknownToolPrefix + name)
    else match search(args)
      case Success(text) => ToolSuccess(text)
      case Failure(m) => ToolError(m)
  }

  /** Both dispatchers know the same single tool and produce the same text for it. */
  lemma DispatchersAgree<A>(name: string, args: A, search: A -> Result<string, string>)
    ensures CallTool(name, args, search).Success? && name == SearchToolName <==> ExecuteTool(name, args, search).ToolSuccess?
    ensures ExecuteTool(name, args, search).ToolSuccess? ==>
      CallTool(name, args, search) == Success(ExecuteTool(name, args, search).result)
    ensures name != SearchToolName ==>
      CallTool(name, args, search) == Success(ExecuteTool(name, args, search).message)
  {
  }

  /** Distinct unknown names give distinct texts. */
  lemma UnknownToolTextsDistinct<A>(n1: string, n2: string, args: A, search: A -> Result<string, string>)
    requires n1 != SearchToolName && n2 != SearchToolName && n1 != n2
    ensures CallTool(n1, args, search) != CallTool(n2, args, search)
  {
    assert CallTool(n1, args, search).value[|UnknownToolPrefix|..] == n1;
  }
}

=== FILE: webapp.dfy ===
/**
 * The administrative handlers of src/web/app.ts over the persisted project
 * map (projects.json) and the settings document: status, check, list, delete,
 * details, and reading and updating the configuration.
 */
module WebApp {
  import opened Wrappers
  import opened Configuration
  import DirScan
  import JsSet

  /** projects.json: normalized project path to the names of its uploaded blobs. */
  type ProjectMap = map<string, seq<string>>

  /** The projects file on disk. */
  datatype ProjectsFile = NoProjectsFile | CorruptProjects(parseError: string) | Projects(projects: ProjectMap)

  /** normalizeProjectPath: the canonical path, or the message of the error it throws. */
  type Normalizer = string -> Result<string, string>

  /** An HTTP reply: a 200 JSON body, or a status code with an error message. */
  datatype Response<+T> = Ok(body: T) | Error(status: int, message: string)

  // ---------------------------------------------------------------------------
  // GET /api/config

  /** The `token` field of the reply: whether a token is set, and nothing else. */
  function MaskToken(token: string): (masked: string)
    ensures masked == "" <==> token == ""
    ensures token != "" ==> masked == "***"
  {
    if token != "" then "***" else ""
  }

  /** Two non-empty tokens are masked alike: the mask reveals nothing about the token. */
  lemma MaskHidesToken(a: string, b: string)
    requires a != "" && b != ""
    ensures MaskToken(a) == MaskToken(b)
  {
  }

  datatype ConfigView = ConfigView(
    batchSize: int,
    maxLinesPerBlob: int,
    baseUrl: string,
    token: string,
    tokenFull: string,
    textExtensions: seq<string>,
    excludePatterns: seq<string>)

  /** The reply to GET /api/config; note that the unmasked token is sent alongside the mask. */
  function ViewConfig(c: Config): (v: ConfigView)
    ensures v.token == "" <==> c.token == ""
    ensures v.token != "" ==> v.token == "***"
    ensures v.tokenFull == c.token
    ensures v.batchSize == c.batchSize && v.maxLinesPerBlob == c.maxLinesPerBlob && v.baseUrl == c.baseUrl
    ensures v.textExtensions == c.textExtensions && v.excludePatterns == c.excludePatterns
    ensures JsSet.NoDuplicates(c.textExtensions) ==> JsSet.NoDuplicates(v.textExtensions)
  {
    ConfigView(c.batchSize, c.maxLinesPerBlob, c.baseUrl, MaskToken(c.token), c.token,
               c.textExtensions, c.excludePatterns)
  }

  // ---------------------------------------------------------------------------
  // POST /api/config

  /** The request body; an absent field is `undefined`. */
  datatype ConfigUpdate = ConfigUpdate(
    baseUrl: Option<string>,
    token: Option<string>,
    batchSize: Option<int>,
    maxLinesPerBlob: Option<int>,
    textExtensions: Option<seq<string>>,
    excludePatterns: Option<seq<string>>)

  const NoChange := ConfigUpdate(None, None, None, None, None, None)

  /** One `if (update.x !== undefined) settingsData.X = update.x`. */
  function Overwrite<T>(current: Option<T>, update: Option<T>): (r: Option<T>)
    ensures update.Some? ==> r == update
    ensures update.None? ==> r == current
  {
    if update.Some? then update else current
  }

  /** The settings document after the update: exactly the supplied keys change. */
  function MergeUpdate(s: Settings, u: ConfigUpdate): (r: Settings)
    ensures u.baseUrl.Some? ==> r.baseUrl == u.baseUrl
    ensures u.baseUrl.None? ==> r.baseUrl == s.baseUrl
    ensures u.token.Some? ==> r.token == u.token
    ensures u.token.None? ==> r.token == s.token
    ensures u.batchSize.Some? ==> r.batchSize == u.batchSize
    ensures u.batchSize.None? ==> r.batchSize == s.batchSize
    ensures u.maxLinesPerBlob.Some? ==> r.maxLinesPerBlob == u.maxLinesPerBlob
    ensures u.maxLinesPerBlob.None? ==> r.maxLinesPerBlob == s.maxLinesPerBlob
    ensures u.textExtensions.Some? ==> r.textExtensions == u.textExtensions
    ensures u.textExtensions.None? ==> r.textExtensions == s.textExtensions
    ensures u.excludePatterns.Some? ==> r.excludePatterns == u.excludePatterns
    ensures u.excludePatterns.None? ==> r.excludePatterns == s.excludePatterns
    ensures r.autoIndexOnSearch == s.autoIndexOnSearch && r.others == s.others
  {
    s.(baseUrl := Overwrite(s.baseUrl, u.baseUrl),
       token := Overwrite(s.token, u.token),
       batchSize := Overwrite(s.batchSize, u.batchSize),
       maxLinesPerBlob := Overwrite(s.maxLinesPerBlob, u.maxLinesPerBlob),
       textExtensions := Overwrite(s.textExtensions, u.textExtensions),
       excludePatterns := Overwrite(s.excludePatterns, u.excludePatterns))
  }

  /** An empty update leaves the document as it is. */
  lemma MergeNothing(s: Settings)
    ensures MergeUpdate(s, NoChange) == s
  {
  }

  /** Applying the same update twice is applying it once. */
  lemma MergeIdempotent(s: Settings, u: ConfigUpdate)
    ensures MergeUpdate(MergeUpdate(s, u), u) == MergeUpdate(s, u)
  {
  }

  /**
   * POST /api/config: merge, write the file, then reload the shared instance
   * (created first when there is none).
   */
  function PostConfig(p: Process, u: ConfigUpdate): (r: (Response<string>, Process))
    ensures p.settingsFile.Missing? ==> r.0 == Error(404, "User configuration file not found") && r.1 == p
    ensures p.settingsFile.Unparsable? ==> r.0.Error? && r.0.status == 500 && r.1 == p
    ensures p.settingsFile.Parsed? ==>
      && r.0.Ok?
      && r.1.settingsFile == Parsed(MergeUpdate(p.settingsFile.settings, u))
      && r.1.instance.Some?
      && var cli := if p.instance.Some? then p.instance.value else NewConfig(None, None, p.settingsFile);
         r.1.instance.value == NewConfig(cli.cliBaseUrl, cli.cliToken, r.1.settingsFile)
  {
    match p.settingsFile
    case Missing => (Error(404, "User configuration file not found"), p)
    case Unparsable(e) => (Error(500, "Failed to update configuration: " + e), p)
    case Parsed(s) =>
      var written := Parsed(MergeUpdate(s, u));
      var (c, p') := GetConfig(p.(settingsFile := written));
      ReloadIsFreshConstruction(c, written);
      (Ok("Configuration updated and applied successfully!"), p'.(instance := Some(Reload(c, written))))
  }

  /**
   * A successful update takes effect at once: supplied sizes and patterns are
   * used as given, the flag is re-read from the file, and a URL or token given
   * on the command line still wins over the update.
   */
  lemma UpdateTakesEffect(p: Process, u: ConfigUpdate)
    requires p.settingsFile.Parsed?
    ensures var c := PostConfig(p, u).1.instance.value;
      && (u.batchSize.Some? ==> c.batchSize == u.batchSize.value)
      && (u.maxLinesPerBlob.Some? ==> c.maxLinesPerBlob == u.maxLinesPerBlob.value)
      && (u.excludePatterns.Some? ==> c.excludePatterns == u.excludePatterns.value)
      && c.autoIndexOnSearch == p.settingsFile.settings.autoIndexOnSearch.GetOr(DefaultAutoIndexOnSearch)
      && (p.instance.Some? && Truthy(p.instance.value.cliBaseUrl) ==> c.baseUrl == p.instance.value.cliBaseUrl.value)
      && (p.instance.Some? && Truthy(p.instance.value.cliToken) ==> c.token == p.instance.value.cliToken.value)
  {
  }

  /**
   * Without a command-line URL or token, a supplied non-empty URL or token is
   * used, and an empty one falls back to the default.
   */
  lemma UpdateSetsUrlAndToken(p: Process, u: ConfigUpdate)
    requires p.settingsFile.Parsed?
    requires p.instance.Some? ==> !Truthy(p.instance.value.cliBaseUrl) && !Truthy(p.instance.value.cliToken)
    ensures var c := PostConfig(p, u).1.instance.value;
      && (Truthy(u.baseUrl) ==> c.baseUrl == u.baseUrl.value)
      && (u.baseUrl == Some("") ==> c.baseUrl == DefaultBaseUrl)
      && (Truthy(u.token) ==> c.token == u.token.value)
      && (u.token == Some("") ==> c.token == DefaultToken)
  {
  }

  // ---------------------------------------------------------------------------
  // GET /api/status

  /** `project_count`: the number of keys, and 0 when the file is missing or does not parse. */
  function ProjectCount(file: ProjectsFile): (n: nat)
    ensures file.Projects? ==> n == |file.projects.Keys|
    ensures !file.Projects? ==> n == 0
  {
    if file.Projects? then |file.projects.Keys| else 0
  }

  // ---------------------------------------------------------------------------
  // The project_path prelude shared by check, delete and details

  /** A missing or empty `project_path` is a 400, and so is one the normalizer rejects. */
  function ResolveProject(projectPath: Option<string>, normalize: Normalizer): (r: Result<string, (int, string)>)
    ensures !Truthy(projectPath) ==> r == Failure((400, "project_path is required"))
    ensures Truthy(projectPath) && normalize(projectPath.value).Failure? ==> r.Failure? && r.error.0 == 400
    ensures r.Success? <==> Truthy(projectPath) && normalize(projectPath.value).Success?
    ensures r.Success? ==> r.value == normalize(projectPath.value).value
  {
    if !Truthy(projectPath) then Failure((400, "project_path is required"))
    else match normalize(projectPath.value)
      case Failure(m) => Failure((400, "Invalid project path: " + m))
      case Success(key) => Success(key)
  }

  // ---------------------------------------------------------------------------
  // POST /api/projects/check

  datatype CheckBody = CheckBody(indexed: bool, blobCount: nat, normalizedPath: string)

  function CheckProject(projectPath: Option<string>, normalize: Normalizer, file: ProjectsFile): (r: Response<CheckBody>)
    ensures ResolveProject(projectPath, normalize).Failure? ==>
      r == Error(ResolveProject(projectPath, normalize).error.0, ResolveProject(projectPath, normalize).error.1)
    ensures ResolveProject(projectPath, normalize).Success? && file.CorruptProjects? ==> r.Error? && r.status == 500
    ensures r.Ok? ==> ResolveProject(projectPath, normalize) == Success(r.body.normalizedPath)
    ensures r.Ok? ==> (r.body.indexed <==> r.body.blobCount > 0)
    ensures r.Ok? && file.NoProjectsFile? ==> !r.body.indexed && r.body.blobCount == 0
    ensures r.Ok? && file.Projects? ==>
      r.body.blobCount == if r.body.normalizedPath in file.projects then |file.projects[r.body.normalizedPath]| else 0
    ensures ResolveProject(projectPath, normalize).Success? && !file.CorruptProjects? ==> r.Ok?
  {
    match ResolveProject(projectPath, normalize)
    case Failure((status, message)) => Error(status, message)
    case Success(key) =>
      match file
      case NoProjectsFile => Ok(CheckBody(false, 0, key))
      case CorruptProjects(e) => Error(500, e)
      case Projects(m) =>
        var blobNames := if key in m then m[key] else [];
        Ok(CheckBody(|blobNames| > 0, |blobNames|, key))
  }

  // ---------------------------------------------------------------------------
  // GET /api/projects

  datatype ProjectEntry = ProjectEntry(path: string, blobCount: nat)

  /** One entry per key of the map, in some order of the keys. */
  method ListProjects(file: ProjectsFile) returns (r: Response<seq<ProjectEntry>>)
    ensures file.NoProjectsFile? ==> r == Ok([])
    ensures file.CorruptProjects? ==> r.Error? && r.status == 500
    ensures file.Projects? ==> r.Ok?
    ensures r.Ok? ==> |r.body| == ProjectCount(file)
    ensures r.Ok? ==> forall i :: 0 <= i < |r.body| ==>
      file.Projects? && r.body[i].path in file.projects && r.body[i].blobCount == |file.projects[r.body[i].path]|
    ensures r.Ok? && file.Projects? ==> forall k :: k in file.projects ==> exists i :: 0 <= i < |r.body| && r.body[i].path == k
    ensures r.Ok? ==> forall i, j :: 0 <= i < j < |r.body| ==> r.body[i].path != r.body[j].path
  {
    match file
    case NoProjectsFile =>
      return Ok([]);
    case CorruptProjects(e) =>
      return Error(500, e);
    case Projects(m) =>
      var remaining := m.Keys;
      var entries: seq<ProjectEntry> := [];
      while remaining != {}
        invariant remaining <= m.Keys
        invariant |entries| + |remaining| == |m.Keys|
        invariant forall i :: 0 <= i < |entries| ==>
          entries[i].path in m && entries[i].path !in remaining && entries[i].blobCount == |m[entries[i].path]|
        invariant forall k :: k in m ==> k in remaining || exists i :: 0 <= i < |entries| && entries[i].path == k
        invariant forall i, j :: 0 <= i < j < |entries| ==> entries[i].path != entries[j].path
        decreases remaining
      {
        var k :| k in remaining;
        var before := entries;
        entries := entries + [ProjectEntry(k, |m[k]|)];
        remaining := remaining - {k};
        forall k' | k' in m && k' !in remaining
          ensures exists i :: 0 <= i < |entries| && entries[i].path == k'
        {
          if k' == k {
            assert entries[|before|].path == k;
          } else {
            var i :| 0 <= i < |before| && before[i].path == k';
            assert entries[i] == before[i];
          }
        }
      }
      return Ok(entries);
  }

  // ---------------------------------------------------------------------------
  // DELETE /api/projects/delete

  /** The reply, and the projects file afterwards. */
  function DeleteProject(projectPath: Option<string>, normalize: Normalizer, file: ProjectsFile): (r: (Response<string>, ProjectsFile))
    ensures r.0.Ok? <==>
      && ResolveProject(projectPath, normalize).Success?
      && file.Projects?
      && ResolveProject(projectPath, normalize).value in file.projects
    ensures r.0.Ok? ==>
      && r.0.body == ResolveProject(projectPath, normalize).value
      && r.1 == Projects(file.projects - {r.0.body})
    ensures r.0.Error? ==> r.1 == file
    ensures ResolveProject(projectPath, normalize).Failure? ==> r.0.Error? && r.0.status == 400
    ensures ResolveProject(projectPath, normalize).Success? && file.NoProjectsFile? ==>
      r.0 == Error(404, "No indexed projects found")
    ensures ResolveProject(projectPath, normalize).Success? && file.CorruptProjects? ==>
      r.0.Error? && r.0.status == 500
    ensures (ResolveProject(projectPath, normalize).Success? && file.Projects?
      && ResolveProject(projectPath, normalize).value !in file.projects) ==>
      r.0 == Error(404, "Project not found in index")
  {
    match ResolveProject(projectPath, normalize)
    case Failure((status, message)) => (Error(status, message), file)
    case Success(key) =>
      match file
      case NoProjectsFile => (Error(404, "No indexed projects found"), file)
      case CorruptProjects(e) => (Error(500, e), file)
      case Projects(m) =>
        // any array, even an empty one, is truthy
        if key !in m then (Error(404, "Project not found in index"), file)
        else (Ok(key), Projects(m - {key}))
  }

  /** Deleting removes exactly one key; every other project keeps its blob list. */
  lemma DeleteRemovesOnlyThatKey(projectPath: Option<string>, normalize: Normalizer, file: ProjectsFile)
    requires DeleteProject(projectPath, normalize, file).0.Ok?
    ensures var (resp, after) := DeleteProject(projectPath, normalize, file);
      && after.Projects?
      && resp.body !in after.projects
      && (forall k :: k != resp.body ==> (k in after.projects <==> k in file.projects))
      && (forall k :: k in after.projects ==> after.projects[k] == file.projects[k])
      && ProjectCount(after) == ProjectCount(file) - 1
  {
    var (resp, after) := DeleteProject(projectPath, normalize, file);
    assert after.projects.Keys == file.projects.Keys - {resp.body};
  }

  /** A project listed with no blobs can still be deleted. */
  lemma EmptyProjectIsDeletable(projectPath: Option<string>, normalize: Normalizer, m: ProjectMap)
    requires ResolveProject(projectPath, normalize).Success?
    requires var key := ResolveProject(projectPath, normalize).value; key in m && m[key] == []
    ensures DeleteProject(projectPath, normalize, Projects(m)).0.Ok?
  {
  }

  /** After a delete the project reads as not indexed, and deleting it again is a 404. */
  lemma DeleteThenCheck(projectPath: Option<string>, normalize: Normalizer, file: ProjectsFile)
    requires DeleteProject(projectPath, normalize, file).0.Ok?
    ensures var after := DeleteProject(projectPath, normalize, file).1;
      && CheckProject(projectPath, normalize, after).Ok?
      && !CheckProject(projectPath, normalize, after).body.indexed
      && CheckProject(projectPath, normalize, after).body.blobCount == 0
      && DeleteProject(projectPath, normalize, after).0 == Error(404, "Project not found in index")
  {
  }

  // ---------------------------------------------------------------------------
  // POST /api/projects/details

  datatype DetailsBody = DetailsBody(
    path: string,
    blobCount: nat,
    fileCount: nat,
    fileTypeStats: map<string, nat>,
    indexed: bool)

  /** The listing found at a path, or None when it is not an existing directory. */
  type FileSystem = string -> Option<DirScan.Listing>

  /** What the walk reads from the configuration. */
  function ScanFilter(c: Config, compile: DirScan.RegexCompiler): (f: DirScan.Filter)
    ensures f.excludePatterns == c.excludePatterns && f.textExtensions == c.textExtensions
  {
    DirScan.Filter(c.excludePatterns, c.textExtensions, compile)
  }

  /**
   * The statistics of the project directory as the handler computes them: an
   * uncompilable exclude pattern ends the listing it is reached in.
   */
  function ScanProject(root: Option<DirScan.Listing>, f: DirScan.Filter): (t: DirScan.Tally)
    ensures t.total == DirScan.Sum(t.stats)
    ensures forall e :: e in t.stats ==> e != "" && e in f.textExtensions
    ensures root.None? ==> t == DirScan.EmptyTally
    ensures root.Some? ==> t.total == |DirScan.VisitListingAsWritten(root.value, f)|
    ensures (forall i :: 0 <= i < |f.excludePatterns| ==> f.compile(f.excludePatterns[i]).Some?) ==>
      t == ScanProjectCorrected(root, f)
  {
    match root
    case None => DirScan.EmptyTally
    case Some(l) =>
      DirScan.AsWrittenCounts(l, f);
      DirScan.ListingAgreesWhenPatternsCompile(l, f);
      DirScan.ScanListingAsWritten(l, f, DirScan.EmptyTally)
  }

  /** The statistics of the project directory with every directory entry visited. */
  function ScanProjectCorrected(root: Option<DirScan.Listing>, f: DirScan.Filter): (t: DirScan.Tally)
    ensures t.total == DirScan.Sum(t.stats)
    ensures forall e :: e in t.stats ==> e != "" && e in f.textExtensions
    ensures root.None? ==> t == DirScan.EmptyTally
    ensures root.Some? ==> t.total == |DirScan.VisitListing(root.value, f)|
  {
    match root
    case None => DirScan.EmptyTally
    case Some(l) =>
      DirScan.CorrectedCounts(l, f);
      DirScan.ScanListing(l, f, DirScan.EmptyTally)
  }

  /** POST /api/projects/details as written. */
  function ProjectDetails(
    projectPath: Option<string>, normalize: Normalizer, file: ProjectsFile,
    c: Config, fs: FileSystem, compile: DirScan.RegexCompiler): (r: Response<DetailsBody>)
    ensures r.Ok? <==>
      && ResolveProject(projectPath, normalize).Success?
      && file.Projects?
      && ResolveProject(projectPath, normalize).value in file.projects
    ensures ResolveProject(projectPath, normalize).Failure? ==> r.Error? && r.status == 400
    ensures ResolveProject(projectPath, normalize).Success? && file.NoProjectsFile? ==>
      r == Error(404, "No indexed projects found")
    ensures ResolveProject(projectPath, normalize).Success? && file.CorruptProjects? ==>
      r == Error(500, file.parseError)
    ensures (ResolveProject(projectPath, normalize).Success? && file.Projects?
      && ResolveProject(projectPath, normalize).value !in file.projects) ==>
      r == Error(404, "Project not found in index")
    ensures r.Ok? ==>
      && r.body.path == ResolveProject(projectPath, normalize).value
      && r.body.indexed
      && r.body.blobCount == |file.projects[r.body.path]|
      && r.body.fileCount == DirScan.Sum(r.body.fileTypeStats)
      && (forall e :: e in r.body.fileTypeStats ==> e != "" && e in c.textExtensions)
      && (fs(r.body.path).None? ==> r.body.fileCount == 0 && r.body.fileTypeStats == map[])
      && (fs(r.body.path).Some? ==>
            r.body.fileCount == |DirScan.VisitListingAsWritten(fs(r.body.path).value, ScanFilter(c, compile))|)
  {
    match ResolveProject(projectPath, normalize)
    case Failure((status, message)) => Error(status, message)
    case Success(key) =>
      match file
      case NoProjectsFile => Error(404, "No indexed projects found")
      case CorruptProjects(e) => Error(500, e)
      case Projects(m) =>
        if key !in m then Error(404, "Project not found in index")
        else
          var t := ScanProject(fs(key), ScanFilter(c, compile));
          Ok(DetailsBody(key, |m[key]|, t.total, t.stats, true))
  }

  /** The details handler with the walk visiting every directory entry. */
  function ProjectDetailsCorrected(
    projectPath: Option<string>, normalize: Normalizer, file: ProjectsFile,
    c: Config, fs: FileSystem, compile: DirScan.RegexCompiler): (r: Response<DetailsBody>)
    ensures var w := ProjectDetails(projectPath, normalize, file, c, fs, compile);
      && (w.Error? ==> r == w)
      && (w.Ok? ==> r.Ok? && r.body.path == w.body.path && r.body.blobCount == w.body.blobCount && r.body.indexed)
    ensures r.Ok? ==>
      && r.body.fileCount == DirScan.Sum(r.body.fileTypeStats)
      && (forall e :: e in r.body.fileTypeStats ==> e != "" && e in c.textExtensions)
      && (fs(r.body.path).None? ==> r.body.fileCount == 0 && r.body.fileTypeStats == map[])
      && (fs(r.body.path).Some? ==>
            r.body.fileCount == |DirScan.VisitListing(fs(r.body.path).value, ScanFilter(c, compile))|)
    ensures (forall i :: 0 <= i < |c.excludePatterns| ==> compile(c.excludePatterns[i]).Some?) ==>
      r == ProjectDetails(projectPath, normalize, file, c, fs, compile)
  {
    var w := ProjectDetails(projectPath, normalize, file, c, fs, compile);
    if w.Error? then w
    else
      var t := ScanProjectCorrected(fs(w.body.path), ScanFilter(c, compile));
      Ok(w.body.(fileCount := t.total, fileTypeStats := t.stats))
  }
}

=== FILE: wrappers.dfy ===
/** Optional values and failure-carrying results shared by every module of the model. */
module Wrappers {

  /** A value that may be absent: JavaScript's `undefined` is `None`. */
  datatype Option<+T> = None | Some(value: T) {

    /** JavaScript's `x ?? fallback`: the value when present, otherwise the fallback. */
    function GetOr(fallback: T): T {
      match this
      case Some(v) => v
      case None => fallback
    }
  }

  /** The outcome of an operation that either returns a value or throws an error. */
  datatype Result<+T, +E> = Success(value: T) | Failure(error: E)

  /** The outcome of a check that returns nothing or throws an error. */
  datatype Outcome<+E> = Pass | Fail(error: E)
}
